=== FILE: README.md ===
# electron-app-1 shell core, modelled in Dafny

electron-app-1 is the lifecycle shell of an Electron desktop application. It opens
exactly one window and restores that window's size and fullscreen state from a YAML snapshot
file, `conf/.application-settings-snapshot.yml`. It records the geometry while
the window is visible and writes the file when the application quits. It also
parses the process's start-up arguments and formats timestamps.
This project models that core and proves what it promises:

- `command_line.dfy` (module `CommandLine`) is the argument parser, `src/CommandlineArguments.ts`.
  - The `_configure` scan is an imperative loop with one pending option.
  - It is proved equal to an independent reading of the tokens as a list of option groups, stored with last-write-wins (`Parsed`).
  - The properties of the parse are lemmas about `Parsed`.
- `window_snapshot.dfy` (module `Snapshots`) is the snapshot store, `src/ui/WindowSnapshot.ts`.
  - The untyped record is a `Document`: a mapping, `undefined` (an empty file) or `null`.
  - `getNumber` and `getBoolean` are functions with JavaScript's `parseInt`, `"" + v` and `toLowerCase` written out.
  - `set` and `save` are methods on the store.
- `js_values.dfy` (module `JsValues`) holds the JavaScript conversions the store relies on.
  - `parseInt` with no radix handles leading white space, a sign and a `0x` prefix, and yields NaN when there are no digits.
  - Integers render in decimal.
  - ASCII lower-casing is enough for a comparison with "true" or "1".
- `timestamp.dfy` (module `Timestamps`) is `src/util/Timestamp.ts`.
  - `_rpad` is a loop that pads on the left with '0', despite its name.
  - `timestamp0` is a function of a clock reading that is passed in.
- `application_window.dfy` (module `Windows`) is the single-window controller, `src/ui/ApplicationWindow.ts` and its older revision `src/ApplicationWindow.ts`.
  - The controller is Closed or Open on a native window.
  - The native window's size, position, visibility and fullscreen flag are fields that the environment may change.
- `application.dfy` (module `Lifecycle`) is the application lifecycle, `src/core/Application.ts` and its older revision `src/Application.ts`.
  - It covers `saveAppStatus`, `quit`, the event handlers, the network-log flag and the older revision's lazy `getElectronApp`.
- `environment.dfy` (module `Environment`) is the outside world: the snapshot file, the `conf` directory and the host runtime.
  - Every call into the host (read, mkdir, write, `app.quit`, net-log start and stop) is appended to a trace.
  - The trace lets the contracts state the order of effects, for example that the snapshot is written before `app.quit`.

The two revisions of the controller and of the lifecycle run the same logic at
different line numbers, and one model serves both. In the table, a member that
models both revisions cites the newer one and names the older one's lines in
its last column. In the modelled logic the revisions differ in two places:

- The network-log flag exists only in the newer revision. Its `setupLogging` (`src/core/Application.ts:73-77`) returns before it starts the log, and its `onApplicationWillQuit` (`src/core/Application.ts:112-116`) stops a running log. The older `onApplicationWillQuit` does nothing (`src/Application.ts:69-72`).
- Only the older revision caches `electron.app` lazily (`src/Application.ts:27-32`).

They also differ outside the model: the older `onReadyToShow` throws (`src/ApplicationWindow.ts:128-132`), and the older preload path comes from a file-system probe. The newer `onApplicationReady` registers the F12 shortcut and opens the developer tools, and the newer `run` adds an `uncaughtException` handler and an `--open-devtools` check. "## Left out" lists all of these.

The older `src/ApplicationWindow.ts` imports its snapshot store from `./WindowSnapshot`, which is not part of this model. The store of `src/ui/WindowSnapshot.ts` stands in for it. `src/Application.ts:4` imports `WindowSnapshot` from `./ApplicationWindow`, which does not export it. The model uses the same store there as well.

## Model

| member | source | states |
|---|---|---|
| CommandLine.CommandlineArguments.Configure | src/CommandlineArguments.ts:21-64 | the map is cleared, and after the scan it equals `Parsed(argv)`, the group reading of the tokens stored in order with a later key overwriting an earlier one; the loop invariant ties the scan state (map, pending option) to that reading |
| CommandLine.CommandlineArguments.constructor | src/CommandlineArguments.ts:13-16 | a new parser holds exactly the parse of the argument list |
| CommandLine.CommandlineArguments.Get | src/CommandlineArguments.ts:75-78 | `get(key)`: the stored value, or "" through `?? ""`; what it returns for a given argument list is stated by `CommandLine.GetOfConfigured` |
| CommandLine.GetOfConfigured | src/CommandlineArguments.ts:75-78 | on a parser configured from `argv`, `get` returns "" for an option not among the argument list's option names and for any text that does not start with `--`, and the parsed value of every option that was given |
| CommandLine.SeparatorStep | src/CommandlineArguments.ts:29-30 | a bare `--` token is dropped: it neither stores nor clears a pending option |
| CommandLine.FlushStep | src/CommandlineArguments.ts:31-37 | an option token arriving while another option is pending first stores the pending option as `true` |
| CommandLine.AssignmentStep | src/CommandlineArguments.ts:38-42 | `--k=v` is stored at once under the text before the first '=' with everything after it as value, and nothing becomes pending |
| CommandLine.PendStep | src/CommandlineArguments.ts:44-47 | an option token without '=' becomes the pending option |
| CommandLine.ValueStep | src/CommandlineArguments.ts:50-55 | a non-option token after a pending option becomes that option's string value and clears the pending state |
| CommandLine.SkipStep | src/CommandlineArguments.ts:49-57 | a non-option token with nothing pending is not stored |
| CommandLine.FinalStep | src/CommandlineArguments.ts:60-64 | an option still pending at the end of the tokens is stored as `true` |
| CommandLine.IndexOfIsFirst | src/CommandlineArguments.ts:38-40 | `indexOf('=')` is the first '=' of the token, and -1 exactly when it has none |
| CommandLine.OptionNameIsOption | src/CommandlineArguments.ts:39 | the key cut from an option token keeps its leading `--` |
| CommandLine.LaterOptionsWin | src/CommandlineArguments.ts:24-64 | parsing `ts + us` (with `us` opening on an option) is parsing `us` on top of the parse of `ts`: every key set by `us` takes its value from `us`, and every other key keeps its presence and value from `ts` |
| CommandLine.TrailingAssignment | src/CommandlineArguments.ts:38-42 | a trailing `--k=v` overwrites key `k` with the text after the first '=', which may itself contain '=' |
| CommandLine.TrailingFlag | src/CommandlineArguments.ts:60-64 | a trailing option without '=' is stored as `true` whatever came before |
| CommandLine.TrailingValue | src/CommandlineArguments.ts:50-55 | a trailing option followed by a non-option token stores that token as its value |
| CommandLine.ParsedKeys | src/CommandlineArguments.ts:31-47 | the keys of the parse are exactly the names of the option tokens in the arguments, and every key starts with `--` |
| CommandLine.ParseExample | src/CommandlineArguments.ts:24-64 | `--foo --bar=1 baz --qux` parses to `--foo: true, --bar: "1", --qux: true`, and "baz" is dropped |
| Snapshots.WindowSnapshot.constructor | src/ui/WindowSnapshot.ts:19-30 | the store holds the loaded document; when the file is missing or `safeLoad` throws, it keeps the initial `{}` and the constructor does not throw |
| Snapshots.WindowSnapshot.Set | src/ui/WindowSnapshot.ts:38-40 | on a mapping only the given key is updated, in memory; on an `undefined` or `null` record it throws a TypeError and changes nothing |
| Snapshots.GetAfterSet | src/ui/WindowSnapshot.ts:38-49 | `set(k, v)` then `get(k)` gives `v`, and every other key reads as before |
| Snapshots.NameIsInjective | src/ui/WindowSnapshot.ts:8 | the five snapshot keys name five distinct record entries |
| Snapshots.GetNumberOfStoredInteger | src/ui/WindowSnapshot.ts:56-62 | a key holding an integer, as decimal text or as a number, reads back as that integer |
| Snapshots.GetNumberOfNonNumeric | src/ui/WindowSnapshot.ts:56-62 | an absent key, a boolean or a null reads as NaN, not 0, because `parseInt` does not throw |
| Snapshots.Get | src/ui/WindowSnapshot.ts:47-49 | `get(key)` returns the stored value or `undefined`, and throws a TypeError on an `undefined` or `null` record; its properties are stated by `Snapshots.GetAfterSet` |
| Snapshots.GetNumber | src/ui/WindowSnapshot.ts:56-62 | `getNumber(key)` is `parseInt` of the stored value's string form, and 0 when the lookup throws; its properties are stated by `Snapshots.GetNumberOfStoredInteger`, `Snapshots.GetNumberOfNonNumeric` and `Windows.InitialOptionsOfNonMapping` |
| Snapshots.GetBoolean | src/ui/WindowSnapshot.ts:69-76 | `getBoolean(key)` compares the lower-cased string form with "true" and "1", and is false when the lookup throws; its meaning is stated by `Snapshots.GetBooleanMeaning` |
| Snapshots.GetBooleanMeaning | src/ui/WindowSnapshot.ts:69-76 | true exactly for a stored "true" in any letter case, "1", the boolean true or the number 1; false for an absent key and for a record that is not a mapping |
| Snapshots.WindowSnapshot.Save | src/ui/WindowSnapshot.ts:81-86 | the whole record overwrites the file, with `conf` created first when it is missing; a later load reads back exactly the saved record; an `undefined` record makes `safeDump` throw before anything is written |
| JsValues.ParseIntRoundTrip | src/ui/WindowSnapshot.ts:58 | `parseInt` of an integer's decimal rendering is that integer |
| JsValues.DecimalParses | src/ui/WindowSnapshot.ts:58 | a non-empty run of decimal digits parses to its value |
| JsValues.NegativeDecimalParses | src/ui/WindowSnapshot.ts:58 | a minus sign before a run of decimal digits negates its value |
| JsValues.ParseIntOfWord | src/ui/WindowSnapshot.ts:58 | text starting with a lower-case ASCII letter ("undefined", "true", "null") parses to NaN |
| JsValues.LowerIsTrueOrOne | src/ui/WindowSnapshot.ts:71-72 | the lower-cased text is "true" or "1" exactly for "1" and the letter-case variants of "true" |
| Timestamps.Rpad | src/util/Timestamp.ts:6-13 | the result has length max(\|s\|, len), ends with `s`, is '0' in every position before it, and is `s` itself when `s` is already long enough |
| Timestamps.PaddedField | src/util/Timestamp.ts:6-13 | a value below 10^w padded to width w is exactly w digits and parses back to the value |
| Timestamps.Timestamp0 | src/util/Timestamp.ts:24-38 | `timestamp0()` for a clock reading passed in for `new Date()`; its layout and fields are stated by `Timestamps.Timestamp0Layout` and `Timestamps.Timestamp0Fields` |
| Timestamps.Timestamp0Layout | src/util/Timestamp.ts:35-37 | for in-range clock fields the timestamp is 23 characters long, with '-', '-', ' ', ':', ':', '.' at fixed places around the zero-padded fields |
| Timestamps.Timestamp0Fields | src/util/Timestamp.ts:27-37 | each field of the timestamp parses back to its clock component; the month field is `getMonth() + 1` and lies in 1..12 |
| Windows.InitialOptions | src/ui/ApplicationWindow.ts:176-181 | the options `createWindow` builds from a snapshot record; stated by `Windows.InitialWidthOfStored`, `Windows.InitialHeightOfStored`, `Windows.InitialOptionsOfEmptyRecord`, `Windows.InitialOptionsOfNonMapping` and `Lifecycle.RestoredAfterRecord`; also src/ApplicationWindow.ts:193-198: the same options in the older revision |
| Windows.InitialWidthOfStored | src/ui/ApplicationWindow.ts:177 | a stored non-zero width is the initial width, and a stored 0 gives 800; also src/ApplicationWindow.ts:194: the same rule in the older revision |
| Windows.InitialHeightOfStored | src/ui/ApplicationWindow.ts:178 | a stored non-zero height is the initial height, and a stored 0 gives 600; also src/ApplicationWindow.ts:195: the same rule in the older revision |
| Windows.InitialOptionsOfEmptyRecord | src/ui/ApplicationWindow.ts:175-181 | with no stored geometry the window is 800 by 600 and not fullscreen, and left and top are NaN, because `?? 0` does not fire on NaN; also src/ApplicationWindow.ts:192-198: the same defaults in the older revision |
| Windows.InitialOptionsOfNonMapping | src/ui/ApplicationWindow.ts:175-181 | an `undefined` or `null` record makes every reader fall back through its `catch`: 800 by 600 at 0, 0, not fullscreen |
| Windows.NativeWindow.constructor | src/ui/ApplicationWindow.ts:190 | a new native window is shown at the requested size and fullscreen state, at a position the window system picks |
| Windows.ApplicationWindow.constructor | src/ui/ApplicationWindow.ts:42-48 | the controller starts Closed with recorded position 0, 0; also src/ApplicationWindow.ts:45-51: the same start in the older revision |
| Windows.ApplicationWindow.IsVisible | src/ui/ApplicationWindow.ts:65-67 | `isVisible()` is false whenever no window is held, and otherwise the window's own visibility; `Windows.ApplicationWindow.Close` ensures it is false afterwards, and `Windows.ApplicationWindow.CreateWindow` ensures a newly opened window is visible; also src/ApplicationWindow.ts:71-74: the same in the older revision |
| Windows.ApplicationWindow.GetCurrentWindowState | src/ui/ApplicationWindow.ts:72-104 | Closed gives empty strings and a null fullscreen; Open gives the live size as strings and the live fullscreen flag; the recorded position is refreshed from the window only while it is visible, and the returned left and top are the recorded ones; also src/ApplicationWindow.ts:79-114: the same in the older revision |
| Windows.ApplicationWindow.CreateWindow | src/ui/ApplicationWindow.ts:169-225 | when Open, the held window is returned and the snapshot is not read; when Closed, the snapshot is read afresh and a new window is built with the options it gives and held, and `isVisible()` is then true; the recorded position is kept; also src/ApplicationWindow.ts:184-242: the same in the older revision |
| Windows.ApplicationWindow.Close | src/ui/ApplicationWindow.ts:241-244 | the handle is cleared, also when already Closed, so `isVisible()` is false; the recorded position is kept, so a later `createWindow` builds a fresh window; also src/ui/ApplicationWindow.ts:109-113: the "closed" event runs `close`; also src/ApplicationWindow.ts:261-266: the same in the older revision; also src/ApplicationWindow.ts:119-123: the older revision's "closed" handler |
| Lifecycle.Recorded | src/core/Application.ts:141-147 | capturing writes the five geometry keys and keeps every other key, including keys the store does not name |
| Lifecycle.RestoredAfterRecord | src/core/Application.ts:141-147 | what a capture records is what the next `createWindow` reads back: the captured size (800 by 600 for a zero size), position and fullscreen flag; also src/ui/ApplicationWindow.ts:176-181: the reading side of that round trip |
| Lifecycle.Application.constructor | src/core/Application.ts:118 | the lifecycle's own snapshot store loads the file once at start-up, and the net-log flag starts lowered; also src/Application.ts:74: the same store in the older revision |
| Lifecycle.Application.RecordState | src/core/Application.ts:141-147 | the five `set` calls turn the record into `Recorded`; on an `undefined` or `null` record the first one throws and nothing is recorded; also src/Application.ts:97-103: the same calls in the older revision |
| Lifecycle.Application.SaveAppStatus | src/core/Application.ts:127-156 | geometry is captured only while the window is visible; when it is invisible or closed, neither the record nor the recorded position changes; with `flush` false nothing reaches the disk; with `flush` true the whole record is saved after the capture; the outcome says which exception escapes; also src/Application.ts:83-112: the same in the older revision |
| Lifecycle.Application.Quit | src/core/Application.ts:161-169 | the save, including the write, completes before `app.quit` is called; when the save throws, `app.quit` is never called and the file is untouched; it throws exactly when the record is `undefined`, or `null` with the window visible; the record and the recorded position change exactly as in `saveAppStatus(true)`: for a visible window the geometry is captured first, and a successful quit then leaves a file from which the next window opens with that geometry; for a closed or hidden window the record and the position are kept, so the file holds the record as it stood before the call, with whatever the move and resize handlers captured; also src/Application.ts:117-125: the same in the older revision |
| Lifecycle.Application.OnApplicationClose | src/core/Application.ts:57-70 | on "darwin" nothing happens: the record, the recorded position, the file, the `conf` directory and the host calls are all unchanged; on any other platform it is `quit`: the record and the recorded position change as in `saveAppStatus(true)`, a successful quit leaves the record in the file and calls `app.quit` after the write, a throw leaves the file, the `conf` directory and the host calls untouched, and it throws exactly when `quit` does; also src/Application.ts:37-50: the same in the older revision |
| Lifecycle.Application.OnApplicationReady | src/core/Application.ts:79-85 | `setupLogging` returns before it starts the network log, so the flag is unchanged; then `createWindow`; also src/Application.ts:52-57: the older revision calls `createWindow` only |
| Lifecycle.Application.OnApplicationActivate | src/core/Application.ts:106-110 | `createWindow`, so an activation while Open never opens a second window; also src/Application.ts:59-64: the same in the older revision |
| Lifecycle.Application.OnApplicationWillQuit | src/core/Application.ts:112-116 | stops the network log when the flag is raised, and otherwise calls nothing |
| Lifecycle.Application.OnWindowGeometryChange | src/ui/ApplicationWindow.ts:151-162 | the resize, move and fullscreen handlers capture the geometry and position of a visible window in memory and never write the file; for an invisible or closed window the record and the recorded position are kept; a visible window on an `undefined` or `null` record makes the handler throw a TypeError and record nothing; also src/ApplicationWindow.ts:164-177: the same handlers in the older revision |
| Lifecycle.NetLog.constructor | src/core/Application.ts:12 | the flag starts lowered |
| Lifecycle.NetLog.Start | src/core/Application.ts:14-19 | a running log is stopped first, then the flag is raised and logging starts |
| Lifecycle.NetLog.Stop | src/core/Application.ts:21-26 | nothing happens unless the flag is raised; then logging stops and the flag is lowered |
| Lifecycle.ElectronAppCache.GetElectronApp | src/Application.ts:27-32 | the first `electron.app` seen is cached, and every later call returns that same object |

## Behaviour worth knowing

- **Absent numeric keys read as NaN, not 0.**
  - `parseInt(undefined)` is NaN and does not throw, so `getNumber` of an absent key is NaN.
  - `?? 0` does not replace NaN, so with no snapshot file the window's `left` and `top` options are NaN (`Snapshots.GetNumberOfNonNumeric`, `Windows.InitialOptionsOfEmptyRecord`).
- **Loading is not always fail-soft.**
  - An empty snapshot file loads as `undefined`, and a file holding only `null` loads as `null`. The constructor does not catch either.
  - On such a record `set` throws a TypeError, and `save` of `undefined` throws in `safeDump`.
  - So on an empty file `quit` throws before it calls `app.quit`, and on a platform other than "darwin" closing the last window does not call `app.quit` (`Lifecycle.Application.Quit`, `Lifecycle.Application.OnApplicationClose`).
- **Unknown keys are written back.** The store keeps every key it loaded, and `save` writes them all; the key type restricts only `set` and `get` (`Lifecycle.Recorded`).
- **Two snapshot stores.**
  - `createWindow` reads a fresh store each time it opens a window.
  - The lifecycle keeps its own store (`_temp`), loaded once at start-up, and records into it.
- **Option keys keep their prefix.** `--foo --bar=1 baz --qux` stores the keys `--foo`, `--bar` and `--qux` (`CommandLine.ParseExample`).
- **The restored position does not reach the window.**
  - The options object passes the position as `left` and `top`.
  - Electron's `BrowserWindow` constructor takes a position from options named `x` and `y`.
  - So the model lets the window system choose a new window's position (`Windows.NativeWindow.constructor`). The options still carry `left` and `top` as the code computes them.

## Left out

- Host I/O failures are not modelled.
  - Reading fails only as a missing or malformed file, which the constructor catches.
  - `mkdirSync` and `writeFileSync` are taken to succeed.
- YAML itself is not modelled.
  - `safeLoad`/`safeDump` are an exact round trip of a document.
  - A document that is a scalar or a list (other than `null`), nested values and non-integer numbers are not modelled.
- JavaScript numbers are integers or NaN in the model; fractions, infinities, -0 and the precision limit of large numbers are not modelled.
- `JsValues.ToLower` lowers only the ASCII letters. No other code point lowers to a letter of "true" or to "1", so the `getBoolean` comparison is exact.
- `Windows.NativeWindow.constructor` takes the native window to open shown at exactly the requested size. It also takes the frame size and the content size to be the same. The window system's size limits and the frame are not modelled.
- The Electron-only parts are not modelled, because they are calls into code outside the model:
  - `openDevTools` and the F12 shortcut;
  - `onAppCommand`;
  - `onReadyToShow` (which the older revision makes throw);
  - `loadFile`, the `index.html` existence probe and the preload-path probe;
  - `loadExtensions`, `onIPCMessage`, the `uncaughtException` dialog, `run`'s event registration and `getPath("userData")`.
- The `--open-devtools` checks are not modelled; the model takes them to return normally and to open nothing.
  - The newer `createWindow` (`src/ui/ApplicationWindow.ts:204-205`) and the newer `run` (`src/core/Application.ts:201-207`) use the parser in `src/util/CommandlineArguments.ts`, which is not part of this model.
  - The older `createWindow` (`src/ApplicationWindow.ts:221-222`) calls `getInstance` and `getBoolean`, which `src/CommandlineArguments.ts` does not define.
- `ConfigurationSettings` and the loggers are not part of this model. Their instances are created and then discarded, and log output has no effect on the core.
- Event handlers run to completion one at a time. `async` functions are modelled as sequential calls, so the `await` points and event-emitter registration are not modelled.
- The singletons (`getInstance`) are objects passed in: the lifecycle holds its window controller and host.
- `Lifecycle.NetLog.Start`'s `startLogging('./netlog')` path and its completion are left out. The trace records only that logging started.

=== FILE: application.dfy ===
/**
 * The application lifecycle (src/core/Application.ts, and the older
 * src/Application.ts): capturing the window's geometry into the snapshot
 * store, writing it on quit, the platform rule for "window-all-closed", the
 * ready/activate handlers, and the network-log flag.
 */
module Lifecycle {
  import opened JsValues
  import opened Environment
  import opened Snapshots
  import opened Windows

  /** The value `set("fullscreen", state.fullscreen)` stores: the flag, or null. */
  function FullscreenValue(fullscreen: Option<bool>): Value {
    if fullscreen.Some? then Bool(fullscreen.value) else Nil
  }

  /** The key names `saveAppStatus` writes. */
  predicate IsGeometryKey(k: string) {
    k == Left.Name() || k == Top.Name() || k == Width.Name() || k == Height.Name() || k == FullScreen.Name()
  }

  /**
   * The record after `saveAppStatus` captured a visible window: its size and
   * position as strings and its fullscreen flag as a boolean; every other
   * key, including ones the store does not name, is kept as it was.
   */
  function Recorded(entries: map<string, Value>, g: Geometry): (r: map<string, Value>)
    ensures forall k :: !IsGeometryKey(k) ==> (k in r <==> k in entries)
    ensures forall k :: !IsGeometryKey(k) && k in entries ==> r[k] == entries[k]
  {
    entries[Left.Name() := Str(NumberToString(g.left))][Top.Name() := Str(NumberToString(g.top))]
      [Width.Name() := Str(NumberToString(g.width))][Height.Name() := Str(NumberToString(g.height))]
      [FullScreen.Name() := Bool(g.fullScreen)]
  }

  /** The options a window built from a record holding `g` receives. */
  function ReopenedOptions(g: Geometry): WindowOptions {
    WindowOptions(if g.width != 0 then g.width else 800, if g.height != 0 then g.height else 600,
      Int(g.left), Int(g.top), g.fullScreen)
  }

  /** The host calls `save()` makes when it succeeds: `mkdirSync` when `conf` is missing, then the write. */
  function SaveCalls(confDirExisted: bool, doc: Document): seq<HostCall> {
    (if confDirExisted then [] else [MakeConfDir]) + [WriteSnapshot(doc)]
  }

  /**
   * Reading back what `saveAppStatus` recorded: the next `createWindow`
   * opens the window at the captured size (800 by 600 for a zero size),
   * position and fullscreen state.
   */
  lemma RestoredAfterRecord(entries: map<string, Value>, g: Geometry)
    ensures InitialOptions(Mapping(Recorded(entries, g))) == ReopenedOptions(g)
  {
    var r := Recorded(entries, g);
    assert r[Width.Name()] == Str(NumberToString(g.width));
    assert r[Height.Name()] == Str(NumberToString(g.height));
    assert r[Left.Name()] == Str(NumberToString(g.left));
    assert r[Top.Name()] == Str(NumberToString(g.top));
    InitialWidthOfStored(r, g.width);
    InitialHeightOfStored(r, g.height);
    GetNumberOfStoredInteger(r, Left, g.left);
    GetNumberOfStoredInteger(r, Top, g.top);
    GetBooleanMeaning(Mapping(r), FullScreen);
  }

  /** The module-level `_netlog` flag with `startNetLogging` and `stopNetLogging`. */
  class NetLog {
    var active: bool

    constructor()
      ensures !active
    {
      active := false;
    }

    /** `startNetLogging()`: stop any running log, raise the flag, then start logging. */
    method Start(host: Host)
      modifies this, host`trace
      ensures active
      ensures host.trace == old(host.trace) + (if old(active) then [NetLogStop] else []) + [NetLogStart]
    {
      Stop(host);
      active := true;
      host.StartNetLog();
    }

    /** `stopNetLogging()`: nothing unless the flag is raised; then stop logging and lower it. */
    method Stop(host: Host)
      modifies this, host`trace
      ensures !active
      ensures host.trace == old(host.trace) + (if old(active) then [NetLogStop] else [])
    {
      if !active {
        return;
      }
      host.StopNetLog();
      active := false;
    }
  }

  class Application {
    /** `electron.app`, the file system and `electron.netLog`. */
    const host: Host
    /** `ApplicationWindow.getInstance()`. */
    const window: ApplicationWindow
    /** `_temp`: the snapshot store the lifecycle records into. */
    const temp: WindowSnapshot
    const netLog: NetLog

    /** The singleton's construction: `_temp` loads the snapshot file; the log flag starts lowered. */
    constructor(host: Host, window: ApplicationWindow)
      modifies host`trace
      ensures this.host == host && this.window == window
      ensures fresh(temp) && temp.settings == Loaded(old(host.snapshotFile))
      ensures fresh(netLog) && !netLog.active
      ensures host.trace == old(host.trace) + [ReadSnapshot]
    {
      this.host := host;
      this.window := window;
      temp := new WindowSnapshot(host);
      netLog := new NetLog();
    }

    /**
     * `saveAppStatus(flush)`: while the window is visible, record its
     * geometry (the first `set` throws when the record is undefined or null,
     * and then nothing is recorded); write the record only when `flush`.
     */
    method SaveAppStatus(flush: bool) returns (outcome: Outcome)
      modifies window`positionLeft, window`positionTop, temp, host`snapshotFile, host`confDirExists, host`trace
      ensures window.IsVisible() ==>
        window.positionLeft == window.window.left && window.positionTop == window.window.top
      ensures !window.IsVisible() ==>
        window.positionLeft == old(window.positionLeft) && window.positionTop == old(window.positionTop)
      ensures window.IsVisible() && old(temp.settings).Mapping? ==>
        temp.settings == Mapping(Recorded(old(temp.settings).entries, window.window.Live()))
      ensures !(window.IsVisible() && old(temp.settings).Mapping?) ==> temp.settings == old(temp.settings)
      ensures outcome ==
        if window.IsVisible() && !temp.settings.Mapping? then Threw(TypeError)
        else if flush && temp.settings.Undefined? then Threw(YamlException)
        else Done
      ensures outcome.Done? && flush ==>
        host.snapshotFile == Holds(temp.settings) && host.confDirExists &&
        host.trace == old(host.trace) + SaveCalls(old(host.confDirExists), temp.settings)
      ensures outcome.Threw? || !flush ==>
        host.snapshotFile == old(host.snapshotFile) && host.confDirExists == old(host.confDirExists) &&
        host.trace == old(host.trace)
    {
      var state := window.GetCurrentWindowState();
      if window.IsVisible() {
        outcome := RecordState(state, window.window.Live());
        if outcome.Threw? {
          return;
        }
      }
      if !flush {
        return Done;
      }
      outcome := temp.Save(host);
    }

    /**
     * The five `set` calls for a visible window's state, whose strings
     * render the geometry `g`; the first throws when the record is undefined
     * or null, and then nothing is recorded.
     */
    method RecordState(state: WindowParameter, g: Geometry) returns (outcome: Outcome)
      requires state == WindowParameter(NumberToString(g.width), NumberToString(g.height),
        NumberToString(g.left), NumberToString(g.top), Some(g.fullScreen))
      modifies temp
      ensures old(temp.settings).Mapping? ==>
        outcome == Done && temp.settings == Mapping(Recorded(old(temp.settings).entries, g))
      ensures !old(temp.settings).Mapping? ==> outcome == Threw(TypeError) && temp.settings == old(temp.settings)
    {
      outcome := temp.Set(Left, Str(state.left));
      if outcome.Threw? {
        return;
      }
      // The record is a mapping from here on, so the remaining sets return normally.
      outcome := temp.Set(Top, Str(state.top));
      outcome := temp.Set(Width, Str(state.width));
      outcome := temp.Set(Height, Str(state.height));
      outcome := temp.Set(FullScreen, FullscreenValue(state.fullscreen));
    }

    /**
     * `quit()`: save with `flush` true, then ask the host to quit; an
     * exception from the save propagates and the host is never asked.
     */
    method Quit() returns (outcome: Outcome)
      modifies window`positionLeft, window`positionTop, temp, host`snapshotFile, host`confDirExists, host`trace
      ensures window.IsVisible() ==>
        window.positionLeft == window.window.left && window.positionTop == window.window.top
      ensures !window.IsVisible() ==>
        window.positionLeft == old(window.positionLeft) && window.positionTop == old(window.positionTop)
      ensures window.IsVisible() && old(temp.settings).Mapping? ==>
        temp.settings == Mapping(Recorded(old(temp.settings).entries, window.window.Live()))
      ensures !(window.IsVisible() && old(temp.settings).Mapping?) ==> temp.settings == old(temp.settings)
      ensures outcome.Threw? <==>
        old(temp.settings).Undefined? || (window.IsVisible() && old(temp.settings).Null?)
      ensures outcome.Done? ==>
        host.trace == old(host.trace) + SaveCalls(old(host.confDirExists), temp.settings) + [AppQuit]
      ensures outcome.Done? ==> Loaded(host.snapshotFile) == temp.settings
      ensures outcome.Done? && !window.IsVisible() ==> Loaded(host.snapshotFile) == old(temp.settings)
      ensures outcome.Done? && window.IsVisible() ==>
        InitialOptions(Loaded(host.snapshotFile)) == ReopenedOptions(window.window.Live())
      ensures outcome.Threw? ==>
        host.trace == old(host.trace) && host.snapshotFile == old(host.snapshotFile) &&
        host.confDirExists == old(host.confDirExists)
    {
      outcome := SaveAppStatus(true);
      if outcome.Threw? {
        return;
      }
      if window.IsVisible() {
        RestoredAfterRecord(old(temp.settings).entries, window.window.Live());
      }
      host.Quit();
    }

    /** `onApplicationClose()` ("window-all-closed"): nothing on "darwin", `quit()` on every other platform. */
    method OnApplicationClose(platform: string) returns (outcome: Outcome)
      modifies window`positionLeft, window`positionTop, temp, host`snapshotFile, host`confDirExists, host`trace
      ensures platform == "darwin" ==>
        outcome == Done && temp.settings == old(temp.settings) && host.trace == old(host.trace) &&
        host.snapshotFile == old(host.snapshotFile) && host.confDirExists == old(host.confDirExists) &&
        window.positionLeft == old(window.positionLeft) && window.positionTop == old(window.positionTop)
      ensures platform != "darwin" ==>
        (outcome.Threw? <==> old(temp.settings).Undefined? || (window.IsVisible() && old(temp.settings).Null?))
      ensures platform != "darwin" && window.IsVisible() ==>
        window.positionLeft == window.window.left && window.positionTop == window.window.top
      ensures platform != "darwin" && !window.IsVisible() ==>
        window.positionLeft == old(window.positionLeft) && window.positionTop == old(window.positionTop)
      ensures platform != "darwin" && window.IsVisible() && old(temp.settings).Mapping? ==>
        temp.settings == Mapping(Recorded(old(temp.settings).entries, window.window.Live()))
      ensures platform != "darwin" && !(window.IsVisible() && old(temp.settings).Mapping?) ==>
        temp.settings == old(temp.settings)
      ensures platform != "darwin" && outcome.Done? ==>
        host.trace == old(host.trace) + SaveCalls(old(host.confDirExists), temp.settings) + [AppQuit] &&
        Loaded(host.snapshotFile) == temp.settings
      ensures platform != "darwin" && outcome.Threw? ==>
        host.trace == old(host.trace) && host.snapshotFile == old(host.snapshotFile) &&
        host.confDirExists == old(host.confDirExists)
    {
      if platform == "darwin" {
        return Done;
      }
      outcome := Quit();
    }

    /**
     * `onApplicationReady()`: `setupLogging()` returns before it starts the
     * network log, so the flag stays as it is; then `createWindow()`.
     */
    method OnApplicationReady(placedLeft: int, placedTop: int) returns (w: NativeWindow)
      modifies window`window, host`trace
      ensures window.window == w && netLog.active == old(netLog.active)
      ensures old(window.window) != null ==> w == old(window.window) && host.trace == old(host.trace)
      ensures old(window.window) == null ==>
        fresh(w) && w.options == InitialOptions(Loaded(old(host.snapshotFile))) &&
        host.trace == old(host.trace) + [ReadSnapshot]
    {
      w := window.CreateWindow(host, placedLeft, placedTop);
    }

    /** `onApplicationActivate()`: `createWindow()`, which keeps an open window rather than opening a second. */
    method OnApplicationActivate(placedLeft: int, placedTop: int) returns (w: NativeWindow)
      modifies window`window, host`trace
      ensures window.window == w
      ensures old(window.window) != null ==> w == old(window.window) && host.trace == old(host.trace)
      ensures old(window.window) == null ==>
        fresh(w) && w.options == InitialOptions(Loaded(old(host.snapshotFile))) &&
        host.trace == old(host.trace) + [ReadSnapshot]
    {
      w := window.CreateWindow(host, placedLeft, placedTop);
    }

    /** `onApplicationWillQuit()`: stop the network log if it is running. */
    method OnApplicationWillQuit()
      modifies netLog, host`trace
      ensures !netLog.active
      ensures host.trace == old(host.trace) + (if old(netLog.active) then [NetLogStop] else [])
    {
      netLog.Stop(host);
    }

    /**
     * The window's "resize" and "move" handlers: `saveAppStatus()` with
     * `flush` false, which records in memory and never touches the disk; on
     * an undefined or null record a visible window's first `set` throws.
     */
    method OnWindowGeometryChange() returns (outcome: Outcome)
      modifies window`positionLeft, window`positionTop, temp, host`snapshotFile, host`confDirExists, host`trace
      ensures window.IsVisible() ==>
        window.positionLeft == window.window.left && window.positionTop == window.window.top
      ensures !window.IsVisible() ==>
        window.positionLeft == old(window.positionLeft) && window.positionTop == old(window.positionTop)
      ensures window.IsVisible() && old(temp.settings).Mapping? ==>
        outcome == Done && temp.settings == Mapping(Recorded(old(temp.settings).entries, window.window.Live()))
      ensures window.IsVisible() && !old(temp.settings).Mapping? ==>
        outcome == Threw(TypeError) && temp.settings == old(temp.settings)
      ensures !window.IsVisible() ==> outcome == Done && temp.settings == old(temp.settings)
      ensures host.snapshotFile == old(host.snapshotFile) && host.confDirExists == old(host.confDirExists)
      ensures host.trace == old(host.trace)
    {
      outcome := SaveAppStatus(false);
    }
  }

  /** The older revision's lazy `getElectronApp()`: the first `electron.app` seen is kept. */
  class ElectronAppCache {
    var application: Host?

    constructor()
      ensures application == null
    {
      application := null;
    }

    method GetElectronApp(electronApp: Host) returns (app: Host)
      modifies this
      ensures old(application) == null ==> app == electronApp
      ensures old(application) != null ==> app == old(application)
      ensures application == app
    {
      if application == null {
        application := electronApp;
      }
      app := application;
    }
  }
}

=== FILE: application_window.dfy ===
/**
 * The single-window controller (src/ui/ApplicationWindow.ts, and the older
 * src/ApplicationWindow.ts with the same logic): it is Closed or Open on one
 * native window, builds that window from the snapshot's geometry, and
 * remembers the window's position from the last time it was seen visible.
 */
module Windows {
  import opened JsValues
  import opened Environment
  import opened Snapshots

  /** The geometry options `createWindow` passes to the native window. */
  datatype WindowOptions = WindowOptions(width: int, height: int, left: JsNumber, top: JsNumber, fullscreen: bool)

  /** `n || d` for a number: `d` when `n` is 0 or NaN. */
  function OrDefault(n: JsNumber, d: int): int {
    if Truthy(n) then n.value else d
  }

  /**
   * The options `createWindow` builds from a snapshot record: width and
   * height fall back to 800 and 600 when the stored value is not a non-zero
   * number; `?? 0` and `?? false` never fire on a number or a boolean, so
   * left, top and fullscreen are the readers' results as they are.
   */
  function InitialOptions(doc: Document): WindowOptions {
    WindowOptions(
      OrDefault(GetNumber(doc, Width), 800),
      OrDefault(GetNumber(doc, Height), 600),
      GetNumber(doc, Left),
      GetNumber(doc, Top),
      GetBoolean(doc, FullScreen))
  }

  /** What a native window shows of itself: content size, position and fullscreen flag. */
  datatype Geometry = Geometry(width: int, height: int, left: int, top: int, fullScreen: bool)

  /** `WindowParameter`: the window state as strings; all empty and a null fullscreen without a window. */
  datatype WindowParameter = WindowParameter(width: string, height: string, left: string, top: string, fullscreen: Option<bool>)

  // ------------------------------------------------- the options' meaning

  /** A stored non-zero width is the initial width; a stored 0 falls back to 800. */
  lemma InitialWidthOfStored(entries: map<string, Value>, n: int)
    requires Width.Name() in entries
    requires entries[Width.Name()] == Str(NumberToString(n)) || entries[Width.Name()] == Num(n)
    ensures InitialOptions(Mapping(entries)).width == (if n != 0 then n else 800)
  {
    GetNumberOfStoredInteger(entries, Width, n);
  }

  /** A stored non-zero height is the initial height; a stored 0 falls back to 600. */
  lemma InitialHeightOfStored(entries: map<string, Value>, n: int)
    requires Height.Name() in entries
    requires entries[Height.Name()] == Str(NumberToString(n)) || entries[Height.Name()] == Num(n)
    ensures InitialOptions(Mapping(entries)).height == (if n != 0 then n else 600)
  {
    GetNumberOfStoredInteger(entries, Height, n);
  }

  /**
   * With no stored size, position or fullscreen key the window is 800 by
   * 600, and the absent position is NaN: `?? 0` does not replace it.
   */
  lemma InitialOptionsOfEmptyRecord(entries: map<string, Value>)
    requires Width.Name() !in entries && Height.Name() !in entries
    requires Left.Name() !in entries && Top.Name() !in entries && FullScreen.Name() !in entries
    ensures InitialOptions(Mapping(entries)) == WindowOptions(800, 600, NaN, NaN, false)
  {
    GetNumberOfNonNumeric(entries, Width);
    GetNumberOfNonNumeric(entries, Height);
    GetNumberOfNonNumeric(entries, Left);
    GetNumberOfNonNumeric(entries, Top);
    GetBooleanMeaning(Mapping(entries), FullScreen);
  }

  /**
   * A record that is not a mapping (an empty or `null` file) makes every
   * `getNumber` catch and return 0: the defaults 800 by 600 at position 0, 0.
   */
  lemma InitialOptionsOfNonMapping(doc: Document)
    requires !doc.Mapping?
    ensures InitialOptions(doc) == WindowOptions(800, 600, Int(0), Int(0), false)
  {
  }

  // ------------------------------------------------------- native window

  /**
   * The native window (`electron.BrowserWindow`): the options it was built
   * with, and its live state, which the user and the window system change
   * through the methods at the end.
   */
  class NativeWindow {
    const options: WindowOptions
    var width: int
    var height: int
    var left: int
    var top: int
    var visible: bool
    var fullScreen: bool

    /**
     * A new window opens shown, at the requested size and fullscreen state.
     * Its position is where the window system places it: the constructor
     * takes a position from options named `x` and `y`, and the options
     * `createWindow` builds name it `left` and `top`.
     */
    constructor(options: WindowOptions, placedLeft: int, placedTop: int)
      ensures this.options == options
      ensures width == options.width && height == options.height
      ensures left == placedLeft && top == placedTop
      ensures visible && fullScreen == options.fullscreen
    {
      this.options := options;
      width := options.width;
      height := options.height;
      left, top := placedLeft, placedTop;
      visible := true;
      fullScreen := options.fullscreen;
    }

    /** `getContentSize()`, `getPosition()` and `isFullScreen()` together. */
    function Live(): Geometry
      reads this
    {
      Geometry(width, height, left, top, fullScreen)
    }

    /** The user resizes or moves the window. */
    method Reshape(w: int, h: int, l: int, t: int)
      modifies this`width, this`height, this`left, this`top
      ensures width == w && height == h && left == l && top == t
    {
      width, height, left, top := w, h, l, t;
    }

    /** The window is shown or hidden (minimised). */
    method SetVisible(b: bool)
      modifies this`visible
      ensures visible == b
    {
      visible := b;
    }

    /** The window enters or leaves fullscreen. */
    method SetFullScreen(b: bool)
      modifies this`fullScreen
      ensures fullScreen == b
    {
      fullScreen := b;
    }
  }

  // ---------------------------------------------------------- controller

  class ApplicationWindow {
    /** `_window`: the open window, or null when Closed. */
    var window: NativeWindow?
    /** `_position`: where the window was last seen while visible. */
    var positionLeft: int
    var positionTop: int

    constructor()
      ensures window == null && positionLeft == 0 && positionTop == 0
    {
      window := null;
      positionLeft, positionTop := 0, 0;
    }

    /** `isVisible()`: false whenever no window is held. */
    predicate IsVisible()
      reads this, window
    {
      window != null && window.visible
    }

    /**
     * `getCurrentWindowState()`: the live size and fullscreen flag, and the
     * position, which is first refreshed from the window when it is visible
     * and otherwise is the one last recorded.
     */
    method GetCurrentWindowState() returns (state: WindowParameter)
      modifies this`positionLeft, this`positionTop
      ensures window == null ==>
        state == WindowParameter("", "", "", "", None) &&
        positionLeft == old(positionLeft) && positionTop == old(positionTop)
      ensures window != null && window.visible ==> positionLeft == window.left && positionTop == window.top
      ensures window != null && !window.visible ==>
        positionLeft == old(positionLeft) && positionTop == old(positionTop)
      ensures window != null ==>
        state == WindowParameter(NumberToString(window.width), NumberToString(window.height),
          NumberToString(positionLeft), NumberToString(positionTop), Some(window.fullScreen))
    {
      if window == null {
        return WindowParameter("", "", "", "", None);
      }
      if window.visible {
        positionLeft, positionTop := window.left, window.top;
      }
      state := WindowParameter(NumberToString(window.width), NumberToString(window.height),
        NumberToString(positionLeft), NumberToString(positionTop), Some(window.fullScreen));
    }

    /**
     * `createWindow()`: the open window when there is one, without reading
     * the snapshot; otherwise read the snapshot afresh and open a new window
     * with the options it gives, at the position the window system picks.
     * The remembered position is kept either way.
     */
    method CreateWindow(host: Host, placedLeft: int, placedTop: int) returns (w: NativeWindow)
      modifies this`window, host`trace
      ensures window == w
      ensures old(window) == null ==> IsVisible()
      ensures old(window) != null ==> w == old(window) && host.trace == old(host.trace)
      ensures old(window) == null ==>
        fresh(w) && w.options == InitialOptions(Loaded(old(host.snapshotFile))) &&
        w.width == w.options.width && w.height == w.options.height &&
        w.fullScreen == w.options.fullscreen && w.visible &&
        host.trace == old(host.trace) + [ReadSnapshot]
    {
      if window != null {
        return window;
      }
      var snapshot := new WindowSnapshot(host);
      w := new NativeWindow(InitialOptions(snapshot.settings), placedLeft, placedTop);
      window := w;
    }

    /** `close()`, which the window's "closed" event runs: drop the handle; nothing else changes. */
    method Close()
      modifies this`window
      ensures window == null && !IsVisible()
    {
      if window == null {
        return;
      }
      window := null;
    }
  }
}

=== FILE: command_line.dfy ===
/**
 * The start-up argument parser (src/CommandlineArguments.ts). A left-to-right
 * scan with one pending option fills a map from option to value; here the
 * scan is proved equal to an independent reading of the token list as a
 * sequence of option groups, applied with last-write-wins.
 */
module CommandLine {

  /** A parsed option value: the boolean `true` (a bare flag) or a string. */
  datatype ArgValue = Flag | Text(text: string)

  /** `e.startsWith("--")`. */
  predicate IsOption(t: string) {
    |t| >= 2 && t[0] == '-' && t[1] == '-'
  }

  /** A token that opens a group: an option other than the bare separator "--". */
  predicate IsOptionToken(t: string) {
    IsOption(t) && t != "--"
  }

  /** `t.indexOf(c)`: the first position of `c` in `t`, or -1. */
  function IndexOf(t: string, c: char): (i: int)
    ensures -1 <= i < |t|
    ensures i >= 0 ==> t[i] == c
  {
    if t == [] then -1
    else if t[0] == c then 0
    else
      var i := IndexOf(t[1..], c);
      if i == -1 then -1 else i + 1
  }

  /** `IndexOf` finds the first occurrence, and -1 means there is none. */
  lemma {:induction false} IndexOfIsFirst(t: string, c: char)
    ensures IndexOf(t, c) >= 0 ==> forall j :: 0 <= j < IndexOf(t, c) ==> t[j] != c
    ensures IndexOf(t, c) == -1 ==> forall j :: 0 <= j < |t| ==> t[j] != c
  {
    if t != [] && t[0] != c {
      IndexOfIsFirst(t[1..], c);
      assert forall j :: 1 <= j < |t| ==> t[j] == t[1..][j - 1];
    }
  }

  /** An option token held pending: one without '=' (an empty string means none). */
  predicate IsBareOption(t: string) {
    IsOptionToken(t) && IndexOf(t, '=') == -1
  }

  /** The key an option token is stored under: the text before its first '=', or all of it. */
  function OptionName(t: string): string {
    var i := IndexOf(t, '=');
    if i >= 0 then t[..i] else t
  }

  /** The value an option token `--k=v` carries: the text after its first '=' (which may hold more '='s). */
  function OptionText(t: string): string {
    var i := IndexOf(t, '=');
    if i >= 0 then t[i + 1..] else ""
  }

  /** The tokens after any leading "--" separators. */
  function SkipSeparators(ts: seq<string>): (r: seq<string>)
    ensures |r| <= |ts|
    ensures r == [] || r[0] != "--"
  {
    if ts != [] && ts[0] == "--" then SkipSeparators(ts[1..]) else ts
  }

  /**
   * The group a token opens by itself when it is not a bare option:
   * `--k=v` is the group (k, "v"), and a token that is not an option (or is
   * "--") opens none.
   */
  function TokenGroup(t: string): seq<(string, ArgValue)> {
    if !IsOptionToken(t) then [] else [(OptionName(t), Text(OptionText(t)))]
  }

  /**
   * The value a bare option takes from the tokens after it: the next token
   * that is not "--" when that token is not an option, and the flag otherwise
   * (also at the end).
   */
  function BareValue(rest: seq<string>): ArgValue {
    var next := SkipSeparators(rest);
    if next != [] && !IsOption(next[0]) then Text(next[0]) else Flag
  }

  /** Where reading resumes after a bare option: past the value it took, if any. */
  function AfterBare(rest: seq<string>): (r: seq<string>)
    ensures |r| <= |rest|
  {
    var next := SkipSeparators(rest);
    if next != [] && !IsOption(next[0]) then next[1..] else next
  }

  /** The group the first token opens (at most one). */
  function FirstGroup(ts: seq<string>): seq<(string, ArgValue)>
    requires ts != []
  {
    if IsBareOption(ts[0]) then [(ts[0], BareValue(ts[1..]))] else TokenGroup(ts[0])
  }

  /** The tokens reading resumes at after the first group. */
  function AfterFirstGroup(ts: seq<string>): (r: seq<string>)
    requires ts != []
    ensures |r| < |ts|
  {
    if IsBareOption(ts[0]) then AfterBare(ts[1..]) else ts[1..]
  }

  /** The token list read as option groups, in order. */
  function Groups(ts: seq<string>): seq<(string, ArgValue)>
    decreases |ts|
  {
    if ts == [] then [] else FirstGroup(ts) + Groups(AfterFirstGroup(ts))
  }

  /** `gs` applied to `m` in order, each group setting its key: a later group overwrites an earlier one. */
  function Store(m: map<string, ArgValue>, gs: seq<(string, ArgValue)>): map<string, ArgValue>
    decreases |gs|
  {
    if gs == [] then m else Store(m[gs[0].0 := gs[0].1], gs[1..])
  }

  /** The map the parse of `argv` yields: its groups stored into an empty map. */
  function Parsed(argv: seq<string>): map<string, ArgValue> {
    Store(map[], Groups(argv))
  }

  /** The keys a list of groups sets. */
  function GroupNames(gs: seq<(string, ArgValue)>): set<string> {
    if gs == [] then {} else {gs[0].0} + GroupNames(gs[1..])
  }

  /** The option names a token list mentions. */
  function Names(ts: seq<string>): set<string> {
    if ts == [] then {}
    else (if IsOptionToken(ts[0]) then {OptionName(ts[0])} else {}) + Names(ts[1..])
  }

  /** The still-pending option, as the token list it stands for. */
  function PendingTokens(option: string): seq<string> {
    if option == "" then [] else [option]
  }

  // ----------------------------------------------------- storing the groups

  lemma {:induction false} StoreAppend(m: map<string, ArgValue>, gs: seq<(string, ArgValue)>, hs: seq<(string, ArgValue)>)
    ensures Store(m, gs + hs) == Store(Store(m, gs), hs)
    decreases |gs|
  {
    if gs == [] {
      assert gs + hs == hs;
    } else {
      assert (gs + hs)[0] == gs[0] && (gs + hs)[1..] == gs[1..] + hs;
      StoreAppend(m[gs[0].0 := gs[0].1], gs[1..], hs);
    }
  }

  /** Reading one step: the first group is stored, then the groups of the rest. */
  lemma StoreStep(m: map<string, ArgValue>, ts: seq<string>)
    requires ts != []
    ensures Store(m, Groups(ts)) == Store(Store(m, FirstGroup(ts)), Groups(AfterFirstGroup(ts)))
  {
    StoreAppend(m, FirstGroup(ts), Groups(AfterFirstGroup(ts)));
  }

  /** A step that reads the group (key, value) sets that key before the rest is stored. */
  lemma StoreGroup(m: map<string, ArgValue>, key: string, value: ArgValue, ts: seq<string>)
    requires ts != [] && FirstGroup(ts) == [(key, value)]
    ensures Store(m, Groups(ts)) == Store(m[key := value], Groups(AfterFirstGroup(ts)))
  {
    StoreStep(m, ts);
    assert [(key, value)][1..] == [];
  }

  /** A step that reads no group stores nothing. */
  lemma StoreNoGroup(m: map<string, ArgValue>, ts: seq<string>)
    requires ts != [] && FirstGroup(ts) == []
    ensures Store(m, Groups(ts)) == Store(m, Groups(AfterFirstGroup(ts)))
  {
    StoreStep(m, ts);
  }

  lemma {:induction false} StoreKeys(m: map<string, ArgValue>, gs: seq<(string, ArgValue)>)
    ensures Store(m, gs).Keys == m.Keys + GroupNames(gs)
    decreases |gs|
  {
    if gs != [] {
      StoreKeys(m[gs[0].0 := gs[0].1], gs[1..]);
    }
  }

  /** A key the groups set ends with the value they give it, whatever it held before. */
  lemma {:induction false} StoreOverrides(m1: map<string, ArgValue>, m2: map<string, ArgValue>, gs: seq<(string, ArgValue)>, k: string)
    requires k in GroupNames(gs)
    ensures k in Store(m1, gs) && k in Store(m2, gs) && Store(m1, gs)[k] == Store(m2, gs)[k]
    decreases |gs|
  {
    StoreKeys(m1, gs);
    StoreKeys(m2, gs);
    if k in GroupNames(gs[1..]) {
      StoreOverrides(m1[gs[0].0 := gs[0].1], m2[gs[0].0 := gs[0].1], gs[1..], k);
    } else {
      StoreKeeps(m1[gs[0].0 := gs[0].1], gs[1..], k);
      StoreKeeps(m2[gs[0].0 := gs[0].1], gs[1..], k);
    }
  }

  /** A key the groups do not set keeps its value. */
  lemma {:induction false} StoreKeeps(m: map<string, ArgValue>, gs: seq<(string, ArgValue)>, k: string)
    requires k !in GroupNames(gs)
    ensures k in Store(m, gs) <==> k in m
    ensures k in m ==> Store(m, gs)[k] == m[k]
    decreases |gs|
  {
    if gs != [] {
      StoreKeeps(m[gs[0].0 := gs[0].1], gs[1..], k);
    }
  }

  // -------------------------------------------------------- the scan's steps

  /**
   * The map the scan ends with when it holds `entries`, has `option`
   * pending and still has `ts` to read.
   */
  ghost function Outcome(entries: map<string, ArgValue>, option: string, ts: seq<string>): map<string, ArgValue> {
    Store(entries, Groups(PendingTokens(option) + ts))
  }

  /** A "--" token is dropped and leaves the pending option pending. */
  lemma SeparatorStep(entries: map<string, ArgValue>, option: string, rest: seq<string>)
    requires option == "" || IsBareOption(option)
    ensures Outcome(entries, option, rest) == Outcome(entries, option, ["--"] + rest)
  {
    if option == "" {
      assert PendingTokens(option) + (["--"] + rest) == ["--"] + rest;
      assert PendingTokens(option) + rest == rest;
      assert (["--"] + rest)[0] == "--" && (["--"] + rest)[1..] == rest;
      StoreNoGroup(entries, ["--"] + rest);
    } else {
      var ts := [option] + (["--"] + rest);
      assert PendingTokens(option) + (["--"] + rest) == ts;
      assert PendingTokens(option) + rest == [option] + rest;
      assert ts[0] == option && ts[1..] == ["--"] + rest;
      assert ([option] + rest)[0] == option && ([option] + rest)[1..] == rest;
      assert SkipSeparators(["--"] + rest) == SkipSeparators(rest) by {
        assert (["--"] + rest)[1..] == rest;
      }
      assert FirstGroup(ts) == FirstGroup([option] + rest);
      assert AfterFirstGroup(ts) == AfterFirstGroup([option] + rest);
      StoreStep(entries, ts);
      StoreStep(entries, [option] + rest);
    }
  }

  /** An option arriving while another is pending stores the pending one as a flag first. */
  lemma FlushStep(entries: map<string, ArgValue>, option: string, e: string, rest: seq<string>)
    requires IsBareOption(option) && IsOptionToken(e)
    ensures Outcome(entries[option := Flag], "", [e] + rest) == Outcome(entries, option, [e] + rest)
  {
    var ts := [option] + ([e] + rest);
    assert PendingTokens(option) + ([e] + rest) == ts;
    assert PendingTokens("") + ([e] + rest) == [e] + rest;
    assert ts[0] == option && ts[1..] == [e] + rest;
    assert SkipSeparators([e] + rest) == [e] + rest;
    assert FirstGroup(ts) == [(option, Flag)];
    assert AfterFirstGroup(ts) == [e] + rest;
    StoreGroup(entries, option, Flag, ts);
  }

  /** `--k=v` is stored at once under the text before the first '='. */
  lemma AssignmentStep(entries: map<string, ArgValue>, e: string, rest: seq<string>)
    requires IsOptionToken(e) && IndexOf(e, '=') >= 0
    ensures Outcome(entries[OptionName(e) := Text(OptionText(e))], "", rest) ==
      Outcome(entries, "", [e] + rest)
  {
    assert PendingTokens("") + ([e] + rest) == [e] + rest;
    assert PendingTokens("") + rest == rest;
    assert ([e] + rest)[0] == e && ([e] + rest)[1..] == rest;
    StoreGroup(entries, OptionName(e), Text(OptionText(e)), [e] + rest);
  }

  /** A bare option with nothing pending becomes the pending option. */
  lemma PendStep(entries: map<string, ArgValue>, e: string, rest: seq<string>)
    requires IsBareOption(e)
    ensures Outcome(entries, e, rest) == Outcome(entries, "", [e] + rest)
  {
    assert PendingTokens("") + ([e] + rest) == [e] + rest;
    assert PendingTokens(e) + rest == [e] + rest;
  }

  /** A non-option token after a pending option becomes its value. */
  lemma ValueStep(entries: map<string, ArgValue>, option: string, e: string, rest: seq<string>)
    requires IsBareOption(option) && !IsOption(e)
    ensures Outcome(entries[option := Text(e)], "", rest) == Outcome(entries, option, [e] + rest)
  {
    var ts := [option] + ([e] + rest);
    assert PendingTokens(option) + ([e] + rest) == ts;
    assert PendingTokens("") + rest == rest;
    assert ts[0] == option && ts[1..] == [e] + rest;
    assert SkipSeparators([e] + rest) == [e] + rest;
    assert ([e] + rest)[0] == e && ([e] + rest)[1..] == rest;
    assert FirstGroup(ts) == [(option, Text(e))];
    assert AfterFirstGroup(ts) == rest;
    StoreGroup(entries, option, Text(e), ts);
  }

  /** A non-option token with nothing pending is ignored. */
  lemma SkipStep(entries: map<string, ArgValue>, e: string, rest: seq<string>)
    requires !IsOptionToken(e)
    ensures Outcome(entries, "", rest) == Outcome(entries, "", [e] + rest)
  {
    assert PendingTokens("") + ([e] + rest) == [e] + rest;
    assert PendingTokens("") + rest == rest;
    assert ([e] + rest)[0] == e && ([e] + rest)[1..] == rest;
    StoreNoGroup(entries, [e] + rest);
  }

  /** At the end of the tokens a still-pending option is stored as a flag. */
  lemma FinalStep(entries: map<string, ArgValue>, option: string)
    requires IsBareOption(option)
    ensures entries[option := Flag] == Outcome(entries, option, [])
  {
    assert PendingTokens(option) + [] == [option];
    assert [option][0] == option && [option][1..] == [];
    assert SkipSeparators([]) == [];
    assert FirstGroup([option]) == [(option, Flag)];
    assert AfterFirstGroup([option]) == [];
    StoreGroup(entries, option, Flag, [option]);
  }

  // ------------------------------------------------- properties of the parse

  /** Separators in front of a tail that does not start with "--" are skipped as before. */
  lemma {:induction false} SkipSeparatorsAppend(ts: seq<string>, us: seq<string>)
    requires us == [] || us[0] != "--"
    ensures SkipSeparators(ts + us) == SkipSeparators(ts) + us
  {
    if ts == [] {
      assert ts + us == us;
    } else {
      assert (ts + us)[0] == ts[0] && (ts + us)[1..] == ts[1..] + us;
      if ts[0] == "--" {
        SkipSeparatorsAppend(ts[1..], us);
      }
    }
  }

  /**
   * Before a tail that starts with an option token, a step reads the same
   * group and resumes at the same place followed by that tail.
   */
  lemma BareValueAppend(rest: seq<string>, us: seq<string>)
    requires us != [] && IsOptionToken(us[0])
    ensures BareValue(rest + us) == BareValue(rest) && AfterBare(rest + us) == AfterBare(rest) + us
  {
    var next := SkipSeparators(rest);
    SkipSeparatorsAppend(rest, us);
    if next == [] {
      assert next + us == us;
    } else {
      assert (next + us)[0] == next[0];
      assert (next + us)[1..] == next[1..] + us;
    }
  }

  lemma FirstGroupAppend(ts: seq<string>, us: seq<string>)
    requires ts != [] && us != [] && IsOptionToken(us[0])
    ensures FirstGroup(ts + us) == FirstGroup(ts) && AfterFirstGroup(ts + us) == AfterFirstGroup(ts) + us
  {
    assert (ts + us)[0] == ts[0] && (ts + us)[1..] == ts[1..] + us;
    if IsBareOption(ts[0]) {
      BareValueAppend(ts[1..], us);
    }
  }

  /**
   * Tokens that start with an option token are read the same whatever came
   * before them: an option still pending at the joint ends as a flag.
   */
  lemma {:induction false} GroupsAppend(ts: seq<string>, us: seq<string>)
    requires us != [] && IsOptionToken(us[0])
    ensures Groups(ts + us) == Groups(ts) + Groups(us)
    decreases |ts|
  {
    if ts == [] {
      assert ts + us == us;
    } else {
      GroupsAppend(AfterFirstGroup(ts), us);
      GroupsAppendCombine(ts, us);
    }
  }

  /** One step of `GroupsAppend`: from the claim for the tokens after the first group to the claim for `ts`. */
  lemma GroupsAppendCombine(ts: seq<string>, us: seq<string>)
    requires ts != [] && us != [] && IsOptionToken(us[0])
    requires Groups(AfterFirstGroup(ts) + us) == Groups(AfterFirstGroup(ts)) + Groups(us)
    ensures Groups(ts + us) == Groups(ts) + Groups(us)
  {
    var r := AfterFirstGroup(ts);
    GroupsAppendStep(ts, us);
    GroupsStep(ts);
    ConcatShift(Groups(ts + us), Groups(ts), FirstGroup(ts), Groups(r), Groups(us), Groups(r + us));
  }

  /** Regrouping a concatenation: `h + (a + b)` is `(h + a) + b`. */
  lemma ConcatShift<T>(x: seq<T>, y: seq<T>, h: seq<T>, a: seq<T>, b: seq<T>, c: seq<T>)
    requires x == h + c && c == a + b && y == h + a
    ensures x == y + b
  {
  }

  /** The first group of `ts` is also the first group of `ts + us`, and reading resumes inside `ts`. */
  lemma GroupsAppendStep(ts: seq<string>, us: seq<string>)
    requires ts != [] && us != [] && IsOptionToken(us[0])
    ensures Groups(ts + us) == FirstGroup(ts) + Groups(AfterFirstGroup(ts) + us)
  {
    var tu := ts + us;
    FirstGroupAppend(ts, us);
    GroupsStep(tu);
    assert FirstGroup(tu) == FirstGroup(ts);
    assert AfterFirstGroup(tu) == AfterFirstGroup(ts) + us;
  }

  /** One step of the group reading: the first group, then the groups of what follows it. */
  lemma GroupsStep(ts: seq<string>)
    requires ts != []
    ensures Groups(ts) == FirstGroup(ts) + Groups(AfterFirstGroup(ts))
  {
  }

  /** Parsing on from an option token continues from the map parsed so far. */
  lemma ParsedAppend(ts: seq<string>, us: seq<string>)
    requires us != [] && IsOptionToken(us[0])
    ensures Parsed(ts + us) == Store(Parsed(ts), Groups(us))
  {
    GroupsAppend(ts, us);
    StoreAppend(map[], Groups(ts), Groups(us));
  }

  /** Storing a single group is one map update. */
  lemma StoreOne(m: map<string, ArgValue>, key: string, value: ArgValue)
    ensures Store(m, [(key, value)]) == m[key := value]
  {
    assert [(key, value)][1..] == [];
  }

  /**
   * Last write wins: options given after `ts` override what `ts` set and
   * leave the rest of its map alone.
   */
  lemma LaterOptionsWin(ts: seq<string>, us: seq<string>)
    requires us != [] && IsOptionToken(us[0])
    ensures Parsed(ts + us) == Store(Parsed(ts), Groups(us))
    ensures forall k :: k in Parsed(us) ==> k in Parsed(ts + us) && Parsed(ts + us)[k] == Parsed(us)[k]
    ensures forall k :: k !in Parsed(us) ==>
      (k in Parsed(ts + us) <==> k in Parsed(ts)) &&
      (k in Parsed(ts) ==> Parsed(ts + us)[k] == Parsed(ts)[k])
  {
    ParsedAppend(ts, us);
    StoreKeys(map[], Groups(us));
    forall k | k in Parsed(us)
      ensures k in Parsed(ts + us) && Parsed(ts + us)[k] == Parsed(us)[k]
    {
      StoreOverrides(Parsed(ts), map[], Groups(us), k);
    }
    forall k | k !in Parsed(us)
      ensures (k in Parsed(ts + us) <==> k in Parsed(ts)) &&
        (k in Parsed(ts) ==> Parsed(ts + us)[k] == Parsed(ts)[k])
    {
      StoreKeeps(Parsed(ts), Groups(us), k);
    }
  }

  /** A trailing `--k=v` stores the text after the first '=' under the text before it. */
  lemma TrailingAssignment(ts: seq<string>, a: string)
    requires IsOptionToken(a) && IndexOf(a, '=') >= 0
    ensures Parsed(ts + [a]) == Parsed(ts)[OptionName(a) := Text(OptionText(a))]
  {
    ParsedAppend(ts, [a]);
    assert [a][0] == a && [a][1..] == [];
    StoreGroup(Parsed(ts), OptionName(a), Text(OptionText(a)), [a]);
  }

  /** A trailing bare option is a flag, whatever was pending before it. */
  lemma TrailingFlag(ts: seq<string>, o: string)
    requires IsBareOption(o)
    ensures Parsed(ts + [o]) == Parsed(ts)[o := Flag]
  {
    ParsedAppend(ts, [o]);
    assert [o][0] == o && [o][1..] == [];
    assert SkipSeparators([]) == [];
    StoreGroup(Parsed(ts), o, Flag, [o]);
  }

  /** A bare option followed by a non-option token is one group: the option with that token as its text. */
  lemma ValuePairGroups(o: string, v: string)
    requires IsBareOption(o) && !IsOption(v)
    ensures Groups([o, v]) == [(o, Text(v))]
  {
    var us := [o, v];
    assert us[0] == o && us[1..] == [v];
    LastValue(v);
    assert FirstGroup(us) == [(o, Text(v))] && AfterFirstGroup(us) == [];
    assert Groups(us) == FirstGroup(us) + Groups([]);
  }

  /** A single non-option token after a bare option is its value, and nothing follows it. */
  lemma LastValue(v: string)
    requires !IsOption(v)
    ensures BareValue([v]) == Text(v) && AfterBare([v]) == []
  {
    assert [v][0] == v && [v][1..] == [];
    assert SkipSeparators([v]) == [v];
  }

  /** A trailing bare option followed by a non-option token takes that token as its text. */
  lemma TrailingValue(ts: seq<string>, o: string, v: string)
    requires IsBareOption(o) && !IsOption(v)
    ensures Parsed(ts + [o, v]) == Parsed(ts)[o := Text(v)]
  {
    ValuePairGroups(o, v);
    ParsedAppend(ts, [o, v]);
    StoreOne(Parsed(ts), o, Text(v));
  }

  lemma {:induction false} NamesAfterSeparators(ts: seq<string>)
    ensures Names(SkipSeparators(ts)) == Names(ts)
  {
    if ts != [] && ts[0] == "--" {
      NamesAfterSeparators(ts[1..]);
    }
  }

  /** The names a step passes over are the key of the group it reads. */
  lemma NamesStep(ts: seq<string>)
    requires ts != []
    ensures Names(ts) == GroupNames(FirstGroup(ts)) + Names(AfterFirstGroup(ts))
  {
    var t, rest := ts[0], ts[1..];
    if IsBareOption(t) {
      var next := SkipSeparators(rest);
      NamesAfterSeparators(rest);
      if next != [] && !IsOption(next[0]) {
        assert Names(next) == Names(next[1..]);
      }
    }
  }

  lemma {:induction false} GroupNamesAppend(gs: seq<(string, ArgValue)>, hs: seq<(string, ArgValue)>)
    ensures GroupNames(gs + hs) == GroupNames(gs) + GroupNames(hs)
  {
    if gs == [] {
      assert gs + hs == hs;
    } else {
      assert (gs + hs)[0] == gs[0] && (gs + hs)[1..] == gs[1..] + hs;
      GroupNamesAppend(gs[1..], hs);
    }
  }

  lemma {:induction false} GroupNamesOfGroups(ts: seq<string>)
    ensures GroupNames(Groups(ts)) == Names(ts)
    decreases |ts|
  {
    if ts != [] {
      GroupNamesAppend(FirstGroup(ts), Groups(AfterFirstGroup(ts)));
      NamesStep(ts);
      GroupNamesOfGroups(AfterFirstGroup(ts));
    }
  }

  /** The key of an option token keeps its leading "--". */
  lemma OptionNameIsOption(t: string)
    requires IsOptionToken(t)
    ensures IsOption(OptionName(t))
  {
    var i := IndexOf(t, '=');
    if i >= 0 {
      assert i >= 2 by {
        IndexOfIsFirst(t, '=');
        assert t[0] != '=' && t[1] != '=';
      }
    }
  }

  lemma {:induction false} NamesAreOptions(ts: seq<string>)
    ensures forall k :: k in Names(ts) ==> IsOption(k)
  {
    if ts != [] {
      NamesAreOptions(ts[1..]);
      if IsOptionToken(ts[0]) {
        OptionNameIsOption(ts[0]);
      }
    }
  }

  /**
   * The parse sets exactly the names of the option tokens given (the text
   * before any '='); every key starts with "--", so a value token is never
   * stored as a key.
   */
  lemma ParsedKeys(argv: seq<string>)
    ensures Parsed(argv).Keys == Names(argv)
    ensures forall k :: k in Parsed(argv) ==> IsOption(k)
  {
    StoreKeys(map[], Groups(argv));
    GroupNamesOfGroups(argv);
    NamesAreOptions(argv);
  }

  lemma FooIsBare()
    ensures IsBareOption("--foo")
  {
    assert IndexOf("--foo", '=') == -1;
  }

  lemma QuxIsBare()
    ensures IsBareOption("--qux")
  {
    assert IndexOf("--qux", '=') == -1;
  }

  lemma BarAssignment()
    ensures IsOptionToken("--bar=1") && !IsBareOption("--bar=1")
    ensures OptionName("--bar=1") == "--bar" && OptionText("--bar=1") == "1"
  {
    assert IndexOf("--bar=1", '=') == 5;
    assert "--bar=1"[..5] == "--bar" && "--bar=1"[6..] == "1";
    assert OptionName("--bar=1") == "--bar" && OptionText("--bar=1") == "1";
  }

  /** `--k=v` followed by a non-option token is one group: the token is not stored. */
  lemma AssignmentThenSkipGroups(a: string, b: string)
    requires IsOptionToken(a) && IndexOf(a, '=') >= 0 && !IsOption(b)
    ensures Groups([a, b]) == [(OptionName(a), Text(OptionText(a)))]
  {
    var us := [a, b];
    assert us[0] == a && us[1..] == [b];
    assert [b][0] == b && [b][1..] == [];
    assert FirstGroup([b]) == [] && AfterFirstGroup([b]) == [];
    assert Groups([b]) == [];
  }

  /** A bare option, then `--k=v`, then a token nothing is waiting for: the option is a flag and the token is dropped. */
  lemma FlagThenAssignment(o: string, a: string, b: string)
    requires IsBareOption(o) && IsOptionToken(a) && IndexOf(a, '=') >= 0 && !IsOption(b)
    ensures Parsed([o, a, b]) == map[o := Flag][OptionName(a) := Text(OptionText(a))]
  {
    TrailingFlag([], o);
    assert [] + [o] == [o];
    assert Parsed([]) == map[];
    AssignmentThenSkipGroups(a, b);
    ParsedAppend([o], [a, b]);
    assert [o] + [a, b] == [o, a, b];
    StoreOne(map[o := Flag], OptionName(a), Text(OptionText(a)));
  }

  lemma ExampleFirstThree()
    ensures Parsed(["--foo", "--bar=1", "baz"]) == map["--foo" := Flag, "--bar" := Text("1")]
  {
    FooIsBare();
    BarAssignment();
    FlagThenAssignment("--foo", "--bar=1", "baz");
  }

  /** `--foo --bar=1 baz --qux`: "baz" is ignored, and both bare options are flags. */
  lemma ParseExample()
    ensures Parsed(["--foo", "--bar=1", "baz", "--qux"]) ==
      map["--foo" := Flag, "--bar" := Text("1"), "--qux" := Flag]
  {
    QuxIsBare();
    ExampleFirstThree();
    TrailingFlag(["--foo", "--bar=1", "baz"], "--qux");
    assert ["--foo", "--bar=1", "baz"] + ["--qux"] == ["--foo", "--bar=1", "baz", "--qux"];
  }

  lemma SplitAt(ts: seq<string>, i: int)
    requires 0 <= i < |ts|
    ensures ts[i..] == [ts[i]] + ts[i + 1..]
  {
  }

  /** The two halves `substr` cuts an assignment token into. */
  lemma AssignmentHalves(e: string, k: int)
    requires k == IndexOf(e, '=') && k >= 0
    ensures e[..k] == OptionName(e) && e[k + 1..] == OptionText(e)
  {
  }

  // ------------------------------------------------------------------ parser

  class CommandlineArguments {
    /** `_map`: option name to value. */
    var entries: map<string, ArgValue>

    /** Parse `argv` (the process's argument list, passed in rather than read from `process.argv`). */
    constructor(argv: seq<string>)
      ensures entries == Parsed(argv)
    {
      entries := map[];
      new;
      Configure(argv);
    }

    /**
     * `_configure()`: clear the map, then scan the tokens left to right with
     * one pending option; the map ends as the parse of the tokens, whatever
     * it held before.
     */
    method Configure(argv: seq<string>)
      modifies this
      ensures entries == Parsed(argv)
    {
      entries := map[];
      var option := "";
      assert PendingTokens(option) + argv[0..] == argv;
      for i := 0 to |argv|
        invariant option == "" || IsBareOption(option)
        invariant Outcome(entries, option, argv[i..]) == Parsed(argv)
      {
        var e := argv[i];
        SplitAt(argv, i);
        if e == "--" {
          SeparatorStep(entries, option, argv[i + 1..]);
        } else if IsOption(e) {
          if option != "" {
            FlushStep(entries, option, e, argv[i + 1..]);
            entries := entries[option := Flag];
            option := "";
          }
          var k := IndexOf(e, '=');
          if 0 <= k {
            var left := e[..k];
            var right := e[k + 1..];
            AssignmentHalves(e, k);
            AssignmentStep(entries, e, argv[i + 1..]);
            entries := entries[left := Text(right)];
          } else {
            PendStep(entries, e, argv[i + 1..]);
            option := e;
          }
        } else {
          if option != "" {
            ValueStep(entries, option, e, argv[i + 1..]);
            entries := entries[option := Text(e)];
            option := "";
          } else {
            SkipStep(entries, e, argv[i + 1..]);
          }
        }
      }
      if option != "" {
        FinalStep(entries, option);
        entries := entries[option := Flag];
      } else {
        assert PendingTokens(option) + argv[|argv|..] == [];
      }
    }

    /** `get(key)`: the stored value, or "" when the option was not given. */
    function Get(key: string): ArgValue
      reads this
    {
      if key in entries then entries[key] else Text("")
    }
  }

  /**
   * `get` on a parser configured from `argv`: "" for an option that was not
   * given and for any text that is not an option, and the parsed value of
   * an option that was.
   */
  lemma GetOfConfigured(p: CommandlineArguments, argv: seq<string>, key: string)
    requires p.entries == Parsed(argv)
    ensures key !in Names(argv) ==> p.Get(key) == Text("")
    ensures !IsOption(key) ==> p.Get(key) == Text("")
    ensures key in Names(argv) ==> key in Parsed(argv) && p.Get(key) == Parsed(argv)[key]
  {
    ParsedKeys(argv);
  }
}

=== FILE: environment.dfy ===
/**
 * What the shell sees of the outside world: the snapshot file
 * `conf/.application-settings-snapshot.yml`, the `conf` directory, and the
 * host runtime (`electron.app`, `electron.netLog`). Every call the shell makes
 * into it is appended to a trace, so that the order of effects can be stated.
 */
module Environment {

  /** A scalar of a YAML snapshot document, as js-yaml's `safeLoad` yields it. */
  datatype Value = Str(text: string) | Bool(flag: bool) | Num(number: int) | Nil

  /**
   * A loaded snapshot document: a mapping, `undefined` (an empty file) or
   * `null` (a file holding only `null` or `~`).
   */
  datatype Document = Mapping(entries: map<string, Value>) | Undefined | Null

  /**
   * The snapshot file: missing, present but refused by `safeLoad`, or
   * holding a document that `safeLoad` reads back exactly.
   */
  datatype SnapshotFile = Absent | Malformed | Holds(doc: Document)

  /** A call the shell makes into its environment. */
  datatype HostCall =
    | ReadSnapshot        // readFileSync of the snapshot file
    | MakeConfDir         // mkdirSync("conf")
    | WriteSnapshot(doc: Document)  // writeFileSync(..., { flag: "w" })
    | AppQuit             // electron.app.quit()
    | NetLogStart         // electron.netLog.startLogging
    | NetLogStop          // electron.netLog.stopLogging

  datatype Option<T> = None | Some(value: T)

  /** An exception thrown inside a handler and not caught there. */
  datatype Thrown = TypeError | YamlException

  /** How a call that may throw ended. */
  datatype Outcome = Done | Threw(error: Thrown)

  /** How a call that returns a value or throws ended. */
  datatype Result<T> = Returned(value: T) | Raised(error: Thrown)

  class Host {
    var snapshotFile: SnapshotFile
    var confDirExists: bool
    var trace: seq<HostCall>

    constructor(file: SnapshotFile, confDir: bool)
      ensures snapshotFile == file && confDirExists == confDir && trace == []
    {
      snapshotFile := file;
      confDirExists := confDir;
      trace := [];
    }

    /** readFileSync + safeLoad: what the file holds; nothing on disk changes. */
    method ReadSnapshotFile() returns (file: SnapshotFile)
      modifies this`trace
      ensures file == snapshotFile
      ensures trace == old(trace) + [ReadSnapshot]
    {
      file := snapshotFile;
      trace := trace + [ReadSnapshot];
    }

    /** `mkdirSync("conf")`. */
    method MakeConfDirectory()
      modifies this`confDirExists, this`trace
      ensures confDirExists
      ensures trace == old(trace) + [MakeConfDir]
    {
      confDirExists := true;
      trace := trace + [MakeConfDir];
    }

    /** writeFileSync with flag "w": the file is replaced as a whole by `doc`. */
    method WriteSnapshotFile(doc: Document)
      requires confDirExists
      modifies this`snapshotFile, this`trace
      ensures snapshotFile == Holds(doc)
      ensures trace == old(trace) + [WriteSnapshot(doc)]
    {
      snapshotFile := Holds(doc);
      trace := trace + [WriteSnapshot(doc)];
    }

    /** `electron.app.quit()`. */
    method Quit()
      modifies this`trace
      ensures trace == old(trace) + [AppQuit]
    {
      trace := trace + [AppQuit];
    }

    /** `electron.netLog.startLogging(...)`. */
    method StartNetLog()
      modifies this`trace
      ensures trace == old(trace) + [NetLogStart]
    {
      trace := trace + [NetLogStart];
    }

    /** `electron.netLog.stopLogging()`. */
    method StopNetLog()
      modifies this`trace
      ensures trace == old(trace) + [NetLogStop]
    {
      trace := trace + [NetLogStop];
    }
  }
}

=== FILE: js_values.dfy ===
/**
 * The few JavaScript value conversions the shell relies on: `parseInt` with
 * no radix, the decimal rendering of an integer (`"" + n`, `${n}`), and
 * `toLowerCase` as far as a comparison with "true" or "1" can observe it.
 */
module JsValues {

  /** A JavaScript number as the shell meets it: NaN or an integer. */
  datatype JsNumber = NaN | Int(value: int)

  /** JavaScript truthiness of a number (`x || d` picks `d` exactly when this is false). */
  predicate Truthy(n: JsNumber) {
    n.Int? && n.value != 0
  }

  // ---------------------------------------------------------------- digits

  predicate IsDigit(c: char) {
    '0' <= c <= '9'
  }

  predicate IsHexDigit(c: char) {
    IsDigit(c) || 'a' <= c <= 'f' || 'A' <= c <= 'F'
  }

  /** A digit of the radix `parseInt` settled on (10, or 16 after a "0x" prefix). */
  predicate IsRadixDigit(c: char, hex: bool) {
    if hex then IsHexDigit(c) else IsDigit(c)
  }

  function DigitValue(c: char, hex: bool): (d: nat)
    requires IsRadixDigit(c, hex)
    ensures d < (if hex then 16 else 10)
  {
    if IsDigit(c) then c as int - '0' as int
    else if 'a' <= c <= 'f' then c as int - 'a' as int + 10
    else c as int - 'A' as int + 10
  }

  predicate AllDigits(s: string, hex: bool) {
    forall i :: 0 <= i < |s| ==> IsRadixDigit(s[i], hex)
  }

  /** The value of a run of digits, most significant first. */
  function DigitsValue(s: string, hex: bool): nat
    requires AllDigits(s, hex)
  {
    if s == [] then 0
    else DigitsValue(s[..|s| - 1], hex) * (if hex then 16 else 10) + DigitValue(s[|s| - 1], hex)
  }

  /** Length of the longest prefix of `s` made of digits of the radix. */
  function DigitRun(s: string, hex: bool): (n: nat)
    ensures n <= |s|
    ensures AllDigits(s[..n], hex)
    ensures n < |s| ==> !IsRadixDigit(s[n], hex)
  {
    if s != [] && IsRadixDigit(s[0], hex) then
      var n := 1 + DigitRun(s[1..], hex);
      assert s[..n] == [s[0]] + s[1..][..n - 1];
      n
    else 0
  }

  // ------------------------------------------------------ number to string

  function DigitChar(d: nat): (c: char)
    requires d < 10
    ensures IsDigit(c) && DigitValue(c, false) == d
  {
    ('0' as int + d) as char
  }

  /** Decimal rendering of a natural number, without leading zeros. */
  function NaturalToString(n: nat): (s: string)
    ensures |s| >= 1 && AllDigits(s, false)
  {
    if n < 10 then [DigitChar(n)]
    else NaturalToString(n / 10) + [DigitChar(n % 10)]
  }

  /** `"" + n` (equivalently `${n}` or `String(n)`) for an integer number. */
  function NumberToString(n: int): (s: string)
    ensures |s| >= 1
    ensures n >= 0 ==> AllDigits(s, false)
    ensures n < 0 ==> s[0] == '-' && AllDigits(s[1..], false)
  {
    if n < 0 then "-" + NaturalToString(-n) else NaturalToString(n)
  }

  lemma {:induction false} NaturalToStringValue(n: nat)
    ensures DigitsValue(NaturalToString(n), false) == n
  {
    if n >= 10 {
      var s := NaturalToString(n);
      var prefix := NaturalToString(n / 10);
      assert s[..|s| - 1] == prefix;
      NaturalToStringValue(n / 10);
    }
  }

  // -------------------------------------------------------------- parseInt

  /**
   * WhiteSpace and LineTerminator code points of ECMAScript, which
   * `parseInt` skips at the start of its input: TAB, VT, FF, ZWNBSP, the
   * Unicode space separators (category Zs), LF, CR, LS and PS.
   */
  predicate IsJsWhitespace(c: char) {
    c == '\t' || c == '\U{B}' || c == '\U{C}' || c == '\U{FEFF}' ||
    c == ' ' || c == '\U{A0}' || c == '\U{1680}' || '\U{2000}' <= c <= '\U{200A}' ||
    c == '\U{202F}' || c == '\U{205F}' || c == '\U{3000}' ||
    c == '\n' || c == '\r' || c == '\U{2028}' || c == '\U{2029}'
  }

  /** `s` without its leading whitespace. */
  function TrimStart(s: string): (r: string)
    ensures |r| <= |s|
    ensures r == [] || !IsJsWhitespace(r[0])
  {
    if s != [] && IsJsWhitespace(s[0]) then TrimStart(s[1..]) else s
  }

  /**
   * `parseInt(s)` with no radix: skip leading whitespace, take an optional
   * sign, switch to radix 16 after a "0x"/"0X" prefix, then read the longest
   * run of digits; no digits at all gives NaN. (A negative zero is the
   * integer 0 here; it is falsy and prints as "0", as -0 does.)
   */
  function ParseInt(s: string): JsNumber {
    var t := TrimStart(s);
    if t != [] && (t[0] == '-' || t[0] == '+') then ParseMagnitude(t[1..], t[0] == '-')
    else ParseMagnitude(t, false)
  }

  /** The part of `parseInt` after the sign: radix prefix, then the longest digit run. */
  function ParseMagnitude(u: string, negative: bool): JsNumber {
    var hex := |u| >= 2 && u[0] == '0' && (u[1] == 'x' || u[1] == 'X');
    var body := if hex then u[2..] else u;
    var n := DigitRun(body, hex);
    if n == 0 then NaN
    else
      var magnitude: int := DigitsValue(body[..n], hex);
      Int(if negative then -magnitude else magnitude)
  }

  /** A non-empty run of decimal digits after the sign is read whole. */
  lemma MagnitudeOfDigits(s: string, negative: bool)
    requires |s| >= 1 && AllDigits(s, false)
    ensures ParseMagnitude(s, negative) ==
      Int(if negative then -(DigitsValue(s, false) as int) else DigitsValue(s, false))
  {
    NoHexPrefix(s);
    DigitRunOfDigits(s);
    assert s[..|s|] == s;
  }

  /** Decimal digits never open with the "0x" prefix. */
  lemma NoHexPrefix(s: string)
    requires AllDigits(s, false)
    ensures !(|s| >= 2 && s[0] == '0' && (s[1] == 'x' || s[1] == 'X'))
  {
    if |s| >= 2 {
      assert IsDigit(s[1]);
    }
  }

  /** A non-empty run of decimal digits parses to its value. */
  lemma DecimalParses(s: string)
    requires |s| >= 1 && AllDigits(s, false)
    ensures ParseInt(s) == Int(DigitsValue(s, false))
  {
    assert IsDigit(s[0]);
    assert TrimStart(s) == s;
    MagnitudeOfDigits(s, false);
  }

  /** A minus sign before a non-empty run of decimal digits negates its value. */
  lemma NegativeDecimalParses(s: string)
    requires |s| >= 1 && AllDigits(s, false)
    ensures ParseInt("-" + s) == Int(-(DigitsValue(s, false) as int))
  {
    var m := "-" + s;
    assert m[0] == '-' && !IsJsWhitespace(m[0]);
    assert TrimStart(m) == m;
    assert m[1..] == s;
    MagnitudeOfDigits(s, true);
  }

  lemma DigitRunOfDigits(s: string)
    requires AllDigits(s, false)
    ensures DigitRun(s, false) == |s|
  {
  }

  /** Text that starts with a lower-case letter holds no number: "undefined", "true", "null" give NaN. */
  lemma ParseIntOfWord(s: string)
    requires |s| >= 1 && 'a' <= s[0] <= 'z'
    ensures ParseInt(s) == NaN
  {
    assert !IsJsWhitespace(s[0]);
    assert TrimStart(s) == s;
    assert !(|s| >= 2 && s[0] == '0');
    assert !IsRadixDigit(s[0], false);
  }

  /** Reading back a rendered integer gives the integer: `parseInt(`${n}`) == n`. */
  lemma ParseIntRoundTrip(n: int)
    ensures ParseInt(NumberToString(n)) == Int(n)
  {
    var m: nat := if n < 0 then -n else n;
    NaturalToStringValue(m);
    if n < 0 {
      NegativeDecimalParses(NaturalToString(m));
    } else {
      DecimalParses(NaturalToString(m));
    }
  }

  /** Leading zeros do not change the value of a digit run. */
  lemma {:induction false} LeadingZerosValue(k: nat, s: string)
    requires AllDigits(s, false)
    ensures AllDigits(seq(k, _ => '0') + s, false)
    ensures DigitsValue(seq(k, _ => '0') + s, false) == DigitsValue(s, false)
  {
    var z: string := seq(k, _ => '0');
    if s == [] {
      assert z + s == z;
      ZerosValue(k);
    } else {
      var init := s[..|s| - 1];
      assert (z + s)[..|z + s| - 1] == z + init;
      LeadingZerosValue(k, init);
    }
  }

  lemma {:induction false} ZerosValue(k: nat)
    ensures AllDigits(seq(k, _ => '0'), false)
    ensures DigitsValue(seq(k, _ => '0'), false) == 0
  {
    if k > 0 {
      var z: string := seq(k, _ => '0');
      assert z[..k - 1] == seq(k - 1, _ => '0');
      ZerosValue(k - 1);
    }
  }

  /** A zero-padded rendering of a natural number parses back to it. */
  lemma ParseIntZeroPadded(k: nat, n: nat)
    ensures ParseInt(seq(k, _ => '0') + NaturalToString(n)) == Int(n)
  {
    LeadingZerosValue(k, NaturalToString(n));
    NaturalToStringValue(n);
    DecimalParses(seq(k, _ => '0') + NaturalToString(n));
  }

  // ----------------------------------------------------------- toLowerCase

  function LowerChar(c: char): char {
    if 'A' <= c <= 'Z' then (c as int + 32) as char else c
  }

  /**
   * `toLowerCase` on the ASCII letters. Other code points are kept as they
   * are; no other code point lowers to one of 't', 'r', 'u', 'e' or '1', so
   * comparing the result with "true" or "1" is exact.
   */
  function ToLower(s: string): string {
    seq(|s|, i requires 0 <= i < |s| => LowerChar(s[i]))
  }

  /** The spellings `toLowerCase` turns into "true" or "1": any letter case of "true", and "1". */
  predicate IsTrueSpelling(s: string) {
    s == "1" ||
    (|s| == 4 && (s[0] == 't' || s[0] == 'T') && (s[1] == 'r' || s[1] == 'R') &&
     (s[2] == 'u' || s[2] == 'U') && (s[3] == 'e' || s[3] == 'E'))
  }

  lemma LowerIsTrueOrOne(s: string)
    ensures (ToLower(s) == "true" || ToLower(s) == "1") <==> IsTrueSpelling(s)
  {
    var l := ToLower(s);
    if IsTrueSpelling(s) {
      if s == "1" { assert l == "1"; } else { assert l == "true"; }
    }
    if l == "true" {
      assert l[0] == 't' && l[1] == 'r' && l[2] == 'u' && l[3] == 'e';
    }
    if l == "1" {
      assert l[0] == '1';
    }
  }
}

=== FILE: timestamp.dfy ===
/**
 * Timestamp formatting (src/util/Timestamp.ts): `_rpad` pads on the LEFT
 * with '0' despite its name, and `timestamp0` renders a clock reading as
 * "YYYY-MM-DD hh:mm:ss.SSS".
 */
module Timestamps {
  import opened JsValues

  function Max(a: int, b: int): int {
    if a < b then b else a
  }

  function Zeros(n: nat): string {
    seq(n, _ => '0')
  }

  /** What `_rpad(s, len)` yields: `s` preceded by as many '0' as it lacks to reach `len`. */
  function Padded(s: string, len: int): string {
    if |s| >= len then s else Zeros(len - |s|) + s
  }

  /**
   * `_rpad(s, len)`: prepend '0' while the text is shorter than `len`. The
   * caller's value is already in its string form `"" + s`.
   */
  method Rpad(s: string, len: int) returns (r: string)
    ensures r == Padded(s, len)
    ensures |r| == Max(|s|, len)
    ensures r[|r| - |s|..] == s
    ensures forall i :: 0 <= i < |r| - |s| ==> r[i] == '0'
    ensures |s| >= len ==> r == s
  {
    r := s;
    while |r| < len
      invariant |s| <= |r| <= Max(|s|, len)
      invariant r == Zeros(|r| - |s|) + s
      decreases len - |r|
    {
      r := "0" + r;
      assert r == Zeros(|r| - |s|) + s;
    }
  }

  /** The clock reading `timestamp0` takes from `new Date()`. */
  datatype ClockReading = ClockReading(
    fullYear: int,      // getFullYear()
    monthIndex: int,    // getMonth(), 0 for January
    date: int,          // getDate()
    hours: int,         // getHours()
    minutes: int,       // getMinutes()
    seconds: int,       // getSeconds()
    milliseconds: int)  // getMilliseconds()

  /** The ranges a `Date` keeps its local-time fields in, for a four-digit year. */
  predicate InRange(now: ClockReading) {
    0 <= now.fullYear <= 9999 && 0 <= now.monthIndex <= 11 && 1 <= now.date <= 31 &&
    0 <= now.hours <= 23 && 0 <= now.minutes <= 59 && 0 <= now.seconds <= 59 &&
    0 <= now.milliseconds <= 999
  }

  /** `timestamp0()` for the given clock reading. */
  function Timestamp0(now: ClockReading): string {
    Padded(NumberToString(now.fullYear), 4) + "-" + Padded(NumberToString(1 + now.monthIndex), 2) + "-" +
    Padded(NumberToString(now.date), 2) + " " + Padded(NumberToString(now.hours), 2) + ":" +
    Padded(NumberToString(now.minutes), 2) + ":" + Padded(NumberToString(now.seconds), 2) + "." +
    Padded(NumberToString(now.milliseconds), 3)
  }

  /** A padded field of a value that fits its width: exactly `width` digits reading back as the value. */
  lemma PaddedField(n: int, width: nat, bound: int)
    requires 0 <= n < bound
    requires bound == 10 || bound == 100 || bound == 1000 || bound == 10000
    requires width == (if bound == 10 then 1 else if bound == 100 then 2 else if bound == 1000 then 3 else 4)
    ensures |Padded(NumberToString(n), width)| == width
    ensures AllDigits(Padded(NumberToString(n), width), false)
    ensures ParseInt(Padded(NumberToString(n), width)) == Int(n)
  {
    var s := NumberToString(n);
    NaturalDigits(n, bound);
    var k: nat := width - |s|;
    assert Padded(s, width) == seq(k, _ => '0') + NaturalToString(n);
    LeadingZerosValue(k, NaturalToString(n));
    ParseIntZeroPadded(k, n);
  }

  /** A natural number below 10^w renders in at most w digits. */
  lemma NaturalDigits(n: nat, bound: int)
    requires n < bound
    requires bound == 10 || bound == 100 || bound == 1000 || bound == 10000
    ensures |NaturalToString(n)| <= (if bound == 10 then 1 else if bound == 100 then 2 else if bound == 1000 then 3 else 4)
  {
    if n >= 10 {
      NaturalDigits(n / 10, bound / 10);
    }
  }

  /**
   * For an in-range reading the timestamp is 23 characters long, has the
   * separators '-', '-', ' ', ':', ':', '.' at fixed places, and each field
   * is its component zero-padded to the field's width.
   */
  lemma Timestamp0Layout(now: ClockReading)
    requires InRange(now)
    ensures var r := Timestamp0(now);
      |r| == 23 &&
      r[4] == '-' && r[7] == '-' && r[10] == ' ' && r[13] == ':' && r[16] == ':' && r[19] == '.' &&
      r[0..4] == Padded(NumberToString(now.fullYear), 4) &&
      r[5..7] == Padded(NumberToString(1 + now.monthIndex), 2) &&
      r[8..10] == Padded(NumberToString(now.date), 2) &&
      r[11..13] == Padded(NumberToString(now.hours), 2) &&
      r[14..16] == Padded(NumberToString(now.minutes), 2) &&
      r[17..19] == Padded(NumberToString(now.seconds), 2) &&
      r[20..23] == Padded(NumberToString(now.milliseconds), 3)
  {
    var y, mo, d := Padded(NumberToString(now.fullYear), 4), Padded(NumberToString(1 + now.monthIndex), 2),
      Padded(NumberToString(now.date), 2);
    var h, mi, s := Padded(NumberToString(now.hours), 2), Padded(NumberToString(now.minutes), 2),
      Padded(NumberToString(now.seconds), 2);
    var ms := Padded(NumberToString(now.milliseconds), 3);
    PaddedField(now.fullYear, 4, 10000);
    PaddedField(1 + now.monthIndex, 2, 100);
    PaddedField(now.date, 2, 100);
    PaddedField(now.hours, 2, 100);
    PaddedField(now.minutes, 2, 100);
    PaddedField(now.seconds, 2, 100);
    PaddedField(now.milliseconds, 3, 1000);
    Layout(y, mo, d, h, mi, s, ms);
    assert Timestamp0(now) == y + "-" + mo + "-" + d + " " + h + ":" + mi + ":" + s + "." + ms;
  }

  /**
   * Each field of an in-range timestamp reads back as its component; the
   * month field is `getMonth() + 1`, so it lies in 1..12.
   */
  lemma Timestamp0Fields(now: ClockReading)
    requires InRange(now)
    ensures var r := Timestamp0(now);
      |r| == 23 &&
      ParseInt(r[0..4]) == Int(now.fullYear) &&
      ParseInt(r[5..7]) == Int(now.monthIndex + 1) && 1 <= now.monthIndex + 1 <= 12 &&
      ParseInt(r[8..10]) == Int(now.date) &&
      ParseInt(r[11..13]) == Int(now.hours) &&
      ParseInt(r[14..16]) == Int(now.minutes) &&
      ParseInt(r[17..19]) == Int(now.seconds) &&
      ParseInt(r[20..23]) == Int(now.milliseconds)
  {
    Timestamp0Layout(now);
    PaddedField(now.fullYear, 4, 10000);
    PaddedField(1 + now.monthIndex, 2, 100);
    PaddedField(now.date, 2, 100);
    PaddedField(now.hours, 2, 100);
    PaddedField(now.minutes, 2, 100);
    PaddedField(now.seconds, 2, 100);
    PaddedField(now.milliseconds, 3, 1000);
  }

  /** Where each field and separator of the rendered timestamp sits. */
  lemma Layout(y: string, mo: string, d: string, h: string, mi: string, s: string, ms: string)
    requires |y| == 4 && |mo| == 2 && |d| == 2 && |h| == 2 && |mi| == 2 && |s| == 2 && |ms| == 3
    ensures var r := y + "-" + mo + "-" + d + " " + h + ":" + mi + ":" + s + "." + ms;
      |r| == 23 &&
      r[4] == '-' && r[7] == '-' && r[10] == ' ' && r[13] == ':' && r[16] == ':' && r[19] == '.' &&
      r[0..4] == y && r[5..7] == mo && r[8..10] == d && r[11..13] == h &&
      r[14..16] == mi && r[17..19] == s && r[20..23] == ms
  {
    var r := y + "-" + mo + "-" + d + " " + h + ":" + mi + ":" + s + "." + ms;
    assert r[0..4] == y;
    assert r[5..7] == mo;
    assert r[8..10] == d;
    assert r[11..13] == h;
    assert r[14..16] == mi;
    assert r[17..19] == s;
    assert r[20..23] == ms;
  }
}

=== FILE: window_snapshot.dfy ===
/**
 * The window-geometry snapshot store (src/ui/WindowSnapshot.ts): an untyped
 * record loaded from the snapshot file when the store is constructed, read
 * through typed accessors, updated key by key in memory and written back as
 * a whole.
 */
module Snapshots {
  import opened JsValues
  import opened Environment

  /** The keys `set` and `get` accept (`WindowSnapshotKey`). */
  datatype SnapshotKey = Width | Height | Left | Top | FullScreen {
    function Name(): string {
      match this
      case Width => "width"
      case Height => "height"
      case Left => "left"
      case Top => "top"
      case FullScreen => "fullscreen"
    }
  }

  lemma NameIsInjective(a: SnapshotKey, b: SnapshotKey)
    ensures a.Name() == b.Name() <==> a == b
  {
  }

  /**
   * What the constructor leaves in `_settings`: the loaded document, or the
   * initial `{}` when reading or parsing the file threw.
   */
  function Loaded(file: SnapshotFile): Document {
    if file.Holds? then file.doc else Mapping(map[])
  }

  /** `_settings[key]` on a mapping: the stored value, or `undefined`. */
  function Lookup(entries: map<string, Value>, key: SnapshotKey): Option<Value> {
    if key.Name() in entries then Some(entries[key.Name()]) else None
  }

  /** `"" + v`, which is also the string `parseInt` reads. */
  function JsString(v: Option<Value>): string {
    match v
    case None => "undefined"
    case Some(Str(s)) => s
    case Some(Bool(b)) => if b then "true" else "false"
    case Some(Num(n)) => NumberToString(n)
    case Some(Nil) => "null"
  }

  /** `get(key)`: the stored value; indexing an undefined or null document throws. */
  function Get(doc: Document, key: SnapshotKey): Result<Option<Value>> {
    match doc
    case Mapping(entries) => Returned(Lookup(entries, key))
    case _ => Raised(TypeError)
  }

  /** `getNumber(key)`: `parseInt` of the stored value; 0 only when the lookup throws. */
  function GetNumber(doc: Document, key: SnapshotKey): JsNumber {
    match doc
    case Mapping(entries) => ParseInt(JsString(Lookup(entries, key)))
    case _ => Int(0)
  }

  /** `getBoolean(key)`: the lower-cased string form is "true" or "1"; false when the lookup throws. */
  function GetBoolean(doc: Document, key: SnapshotKey): bool {
    match doc
    case Mapping(entries) =>
      var t := ToLower(JsString(Lookup(entries, key)));
      t == "true" || t == "1"
    case _ => false
  }

  // ------------------------------------------------------------ properties

  /** A stored integer, as text or as a number, is what `getNumber` returns. */
  lemma GetNumberOfStoredInteger(entries: map<string, Value>, key: SnapshotKey, n: int)
    requires key.Name() in entries
    requires entries[key.Name()] == Str(NumberToString(n)) || entries[key.Name()] == Num(n)
    ensures GetNumber(Mapping(entries), key) == Int(n)
  {
    ParseIntRoundTrip(n);
  }

  /**
   * `parseInt(undefined)` does not throw: an absent key, a boolean or a null
   * gives NaN, not 0.
   */
  lemma GetNumberOfNonNumeric(entries: map<string, Value>, key: SnapshotKey)
    requires key.Name() !in entries || entries[key.Name()].Bool? || entries[key.Name()].Nil?
    ensures GetNumber(Mapping(entries), key) == NaN
  {
    ParseIntOfWord(JsString(Lookup(entries, key)));
  }

  /** The independent reading of `getBoolean`: which stored values count as true. */
  predicate StoredTrue(v: Option<Value>) {
    match v
    case None => false
    case Some(Str(s)) => IsTrueSpelling(s)
    case Some(Bool(b)) => b
    case Some(Num(n)) => n == 1
    case Some(Nil) => false
  }

  lemma NumberToStringIsOne(n: int)
    ensures NumberToString(n) == "1" <==> n == 1
  {
    if NumberToString(n) == "1" {
      ParseIntRoundTrip(n);
      DecimalParses("1");
      assert DigitsValue("1", false) == DigitsValue("", false) * 10 + DigitValue('1', false);
    }
  }

  /**
   * `getBoolean` is true exactly for a stored "true" in any letter case, "1",
   * the boolean true or the number 1; an absent key ("undefined") and a
   * document that is not a mapping give false.
   */
  lemma GetBooleanMeaning(doc: Document, key: SnapshotKey)
    ensures GetBoolean(doc, key) <==> doc.Mapping? && StoredTrue(Lookup(doc.entries, key))
  {
    if doc.Mapping? {
      var v := Lookup(doc.entries, key);
      var s := JsString(v);
      LowerIsTrueOrOne(s);
      match v
      case None =>
        assert !IsTrueSpelling("undefined");
      case Some(Str(_)) =>
      case Some(Bool(b)) =>
        assert !IsTrueSpelling("false");
      case Some(Num(n)) =>
        NumberToStringIsOne(n);
        assert |s| == 4 ==> s[0] == '-' || IsDigit(s[0]);
      case Some(Nil) =>
        assert !IsTrueSpelling("null");
    }
  }

  /** `set(k, v)` then `get(k)` gives `v`; every other key reads as before. */
  lemma GetAfterSet(entries: map<string, Value>, key: SnapshotKey, value: Value, other: SnapshotKey)
    ensures Get(Mapping(entries[key.Name() := value]), key) == Returned(Some(value))
    ensures other != key ==>
      Get(Mapping(entries[key.Name() := value]), other) == Get(Mapping(entries), other)
  {
    NameIsInjective(key, other);
  }

  // ----------------------------------------------------------------- store

  class WindowSnapshot {
    /** `_settings`: the in-memory record, including keys it does not name. */
    var settings: Document

    /** Load the file; any failure to read or parse it leaves the record `{}`. */
    constructor(host: Host)
      modifies host`trace
      ensures settings == Loaded(old(host.snapshotFile))
      ensures !old(host.snapshotFile).Holds? ==> settings == Mapping(map[])
      ensures host.trace == old(host.trace) + [ReadSnapshot]
    {
      var file := host.ReadSnapshotFile();
      settings := Loaded(file);
    }

    /** `set(key, value)`: in memory only; throws when the record is undefined or null. */
    method Set(key: SnapshotKey, value: Value) returns (outcome: Outcome)
      modifies this
      ensures old(settings).Mapping? ==>
        outcome == Done && settings == Mapping(old(settings).entries[key.Name() := value])
      ensures !old(settings).Mapping? ==> outcome == Threw(TypeError) && settings == old(settings)
    {
      match settings
      case Mapping(entries) =>
        settings := Mapping(entries[key.Name() := value]);
        outcome := Done;
      case _ =>
        outcome := Threw(TypeError);
    }

    /**
     * `save()`: dump the whole record (safeDump refuses `undefined`), create
     * `conf` when it is missing, and overwrite the file in full.
     */
    method Save(host: Host) returns (outcome: Outcome)
      modifies host`snapshotFile, host`confDirExists, host`trace
      ensures settings.Undefined? ==>
        outcome == Threw(YamlException) &&
        host.snapshotFile == old(host.snapshotFile) && host.confDirExists == old(host.confDirExists) &&
        host.trace == old(host.trace)
      ensures !settings.Undefined? ==>
        outcome == Done && host.snapshotFile == Holds(settings) && host.confDirExists &&
        host.trace == old(host.trace) + (if old(host.confDirExists) then [] else [MakeConfDir]) + [WriteSnapshot(settings)]
      ensures outcome.Done? ==> Loaded(host.snapshotFile) == settings
    {
      if settings.Undefined? {
        return Threw(YamlException);
      }
      if !host.confDirExists {
        host.MakeConfDirectory();
      }
      host.WriteSnapshotFile(settings);
      outcome := Done;
    }
  }
}
